=== FILE: README.md ===
# facepost-vue client core in Dafny

This project models the client-side core of the facepost Vue application:

- the `auth` and `post` Pinia stores;
- the sign-out cascade that resets both;
- the HTTP client's three interceptors:
  - the request interceptor, which adds the bearer token and default headers;
  - the first response interceptor, which handles a 401 by refreshing the token and retrying;
  - the second response interceptor, which normalises every rejected response;
- the `localStorage` wrapper;
- the key re-casing utilities;
- the route table with its navigation guard;
- the endpoint catalogue.

JavaScript values are one datatype (`Js.JsValue`), with the truthiness, `typeof`, string conversion and property access the code relies on. An object is an ordered list of fields.

Each awaited request is an input to the model: a `Result` holding the value the request resolved to, or the error it was rejected with.

Stores whose fields the code updates in place are classes:

- `AuthStore.AuthStore`;
- `PostStore.PostStore`;
- `BrowserStorage.LocalStorage`;
- `ApiClient.RequestConfig`;
- `ApiClient.ErrorObject`.

Every method of these classes is specified by a pure function of the state before the call. The properties the code promises are lemmas about those functions.

An async action with a state worth observing while its request is in flight is split at its `await` into a `…Begin` method and a `…Complete` method. `loginUser`, `getAuthUser` and `getPosts` are split this way. The whole action calls both parts.

Where the code and the written description of the application differ, the model follows the code:

- A rejected request without a response gets a synthesized response with `state: 500`, not `status: 500`. `ApiClient.MissingResponseSynthesized` proves that `status` stays absent.
- The validation errors live in `data.errors`. They are reset to `{}` unless they are already an object, whatever the status.

Several behaviours of the code are proved as properties rather than corrected:

- `clearAllExcept` removes keys while its index moves forward. Under the key order this model gives `localStorage` (see `BrowserStorage.LocalStorage.SetItem` under "## Left out"), the key after each removed key is skipped. `BrowserStorage.SweepSkipsShiftedKey` and `BrowserStorage.SweepLeavesHalf` prove this.
- The `continue` check in `loginUser` anchors only its first alternative, so `signin`, `logout` and `signout` are refused anywhere in the path. The `AuthStore.ContinueRefuses…` lemmas prove this.
- A numeric `error_code` on a failed refresh makes the `catch` block itself throw a TypeError. `ApiClient.NumericErrorCodeThrows` proves this.
- The branch of `getPosts` that switches the user-posts collection to another user is unreachable, because no action ever assigns `user_id`. `PostStore.OwnerSwitchNeverTaken` proves this.

## Model

| member | source | states |
|---|---|---|
| `Urls.WithApiUrlJoinsPath` | src/config/urls.js:4 | a non-empty path is appended to the API root after a slash |
| `Urls.WithApiUrlWithoutPath` | src/config/urls.js:4 | a missing or empty path yields the API root followed by the text `null` |
| `Urls.AuthUrl` | src/config/urls.js:7 | the auth URL is the API root followed by `/auth` |
| `Urls.AuthLoginUrl` | src/config/urls.js:8 | the login URL is the API root followed by `/auth/login` |
| `Urls.AuthRefreshUrl` | src/config/urls.js:9 | the refresh URL is the API root followed by `/auth/refresh` |
| `Urls.AuthRegisterUrl` | src/config/urls.js:10 | the register URL is the API root followed by `/auth/register` |
| `Urls.AuthUserUrl` | src/config/urls.js:11 | the current-user URL is the API root followed by `/auth/user` |
| `Urls.AuthLogoutUrl` | src/config/urls.js:12 | the logout URL is the API root followed by `/auth/logout` |
| `Urls.PostsUrl` | src/config/urls.js:15 | the posts URL is the API root followed by `/posts` |
| `Urls.CommentsUrl` | src/config/urls.js:18 | the comments URL is the API root followed by `/comments` |
| `Urls.CommentsReplyUrl` | src/config/urls.js:19 | the reply URL is the API root followed by `/comments/reply` |
| `Urls.CommentsRepliesUrl` | src/config/urls.js:20 | the replies URL is the API root followed by `/comments/replies` |
| `Urls.GalleryUrl` | src/config/urls.js:23 | the gallery URL is the API root followed by `/gallery` |
| `Urls.LikesLikeUrl` | src/config/urls.js:26 | the like URL is the API root followed by `/likes/like` |
| `Urls.LikesUnlikeUrl` | src/config/urls.js:27 | the unlike URL is the API root followed by `/likes/unlike` |
| `Urls.ProfileUrl` | src/config/urls.js:30 | the profile URL is the API root followed by `/profile` |
| `Urls.AuthEndpointsUnderAuthUrl` | src/config/urls.js:7-12 | the login, refresh, register, user and logout URLs all begin with the auth URL and a slash |
| `Urls.UserAndLogoutNotExempt` | src/config/urls.js:8-12 | neither the user URL nor the logout URL begins with the register, login or refresh URL |
| `Router.FirstMatch` | src/router/index.js:4-38 | the route found matches the path and is in the table; when none is found, no route of the table matches |
| `Router.RequiresAuthAt` | src/router/index.js:50 | the guard reads `requiresAuth` from the first matching route |
| `Router.RequiresAuth` | src/router/index.js:50 | a path requires sign-in only when some route of the table both matches it and is flagged `requiresAuth`, so an unmatched path is public |
| `Router.PostProtected` | src/router/index.js:33-37 | every post page `/post/<id>` with a non-empty, slash-free id requires sign-in |
| `Router.BeforeEach` | src/router/index.js:41-60 | a signed-in redirect goes to `/`; a signed-out redirect happens only for a protected target and goes to `signin` with `continue` set to the target or an empty query; a signed-out navigation that proceeds targets a public route or a sign-in page |
| `Router.RouteTableProtection` | src/router/index.js:6-38 | `/`, `/u/`, `/u` and `/post/<id>` for every non-empty id without a slash are protected; `/about`, `/login`, `/signin`, `/register` and `/signup` are public |
| `Router.LogoutPathsArePublic` | src/router/index.js:50-53 | no route matches `/logout` or `/signout`, so the guard lets them through and its empty-query redirect is never taken |
| `Router.AuthenticatedLeavesAuthPages` | src/router/index.js:45-48 | a signed-in visit to a sign-in or sign-up path is redirected to `/` |
| `Router.AuthenticatedProceeds` | src/router/index.js:45-48 | any other signed-in navigation proceeds |
| `Router.UnauthenticatedRedirectedToSignin` | src/router/index.js:49-55 | a signed-out visit to a protected path other than `/login` and `/signin` goes to `signin`, with `continue` set to the path unless the path is a logout path |
| `Router.UnauthenticatedPublicProceeds` | src/router/index.js:50 | a signed-out visit to a public route proceeds |
| `Router.GuardRedirectsIff` | src/router/index.js:41-60 | the guard redirects exactly when signed in on an auth page or signed out on a protected page other than the sign-in pages |
| `BrowserStorage.LocalStorage.SetItem` | src/lib/browser-storage.js:15 | the item is stored; a new key takes the next index and an existing key keeps its index |
| `BrowserStorage.LocalStorage.RemoveItem` | src/lib/browser-storage.js:49 | the item is gone, and the keys after it move down one index |
| `BrowserStorage.LocalStorage.Clear` | src/lib/browser-storage.js:52 | no key and no item remain |
| `BrowserStorage.Set` | src/lib/browser-storage.js:5-19 | the stored text is the value's JSON for objects and arrays, merged into an existing stored object on request, and the value's string form otherwise |
| `BrowserStorage.StoredText` | src/lib/browser-storage.js:5-19 | a string is stored as itself; an array, or an object written without merging or under a new key, is stored as its JSON |
| `BrowserStorage.ShallowMerge` | src/lib/browser-storage.js:10-12 | a non-object target is kept; an object target keeps all its keys and gains exactly the source object's keys |
| `BrowserStorage.GetIn` | src/lib/browser-storage.js:20-32 | the result is null only when the default is null; an unparsed read returns the stored text; a parsed read returns the decoded value unless it is null |
| `BrowserStorage.Get` | src/lib/browser-storage.js:20-32 | a missing key reads as the default; an unparsed read of a stored key returns its text |
| `BrowserStorage.GetJSON` | src/lib/browser-storage.js:33-35 | the result is null only when the default is null; text the parser rejects is returned as stored |
| `BrowserStorage.SetMergesStoredObject` | src/lib/browser-storage.js:5-15 | `set` with merging over a stored object stores the JSON of the merge, where the stored fields keep their values and the other fields come from the new value |
| `BrowserStorage.MergeKeepsExisting` | src/lib/browser-storage.js:10-12 | on a merge, every field of the stored object keeps its stored value and the other fields come from the new value |
| `BrowserStorage.SetThenGetString` | src/lib/browser-storage.js:5-32 | a string written with `set` is read back unchanged by `get` |
| `BrowserStorage.SetNullStoresText` | src/lib/browser-storage.js:16-18 | `set(key, null)` stores the text `null`, which `get` returns as a string |
| `BrowserStorage.SetThenGetJSON` | src/lib/browser-storage.js:5-35 | an object or array written without merging is read back by `getJSON` whenever the codec round-trips it |
| `BrowserStorage.GetMissing` | src/lib/browser-storage.js:20-32 | a missing key reads as the default value, parsed or not |
| `BrowserStorage.GetKeepsUnparsable` | src/lib/browser-storage.js:24-29 | text the parser rejects is returned as stored |
| `BrowserStorage.Keys` | src/lib/browser-storage.js:65-74 | the keys in index order, exactly the stored keys |
| `BrowserStorage.Has` | src/lib/browser-storage.js:45-47 | true exactly when the key is stored |
| `BrowserStorage.Remove` | src/lib/browser-storage.js:48-50 | the key and its item are gone |
| `BrowserStorage.GetAndRemove` | src/lib/browser-storage.js:36-41 | returns what `get` read before the removal, and the key is gone |
| `BrowserStorage.GetJSONAndRemove` | src/lib/browser-storage.js:42-44 | returns what `getJSON` read before the removal, and the key is gone |
| `BrowserStorage.ClearAll` | src/lib/browser-storage.js:51-53 | the storage is empty |
| `BrowserStorage.ExceptList` | src/lib/browser-storage.js:55 | a string becomes a one-element list, an array is kept, and anything else becomes the empty list |
| `BrowserStorage.ClearAllExcept` | src/lib/browser-storage.js:54-64 | the remaining keys are those of the forward-index sweep; no item is added or changed |
| `BrowserStorage.SweepFrom` | src/lib/browser-storage.js:57-63 | the sweep never adds a key and never touches the keys before the index it starts from |
| `BrowserStorage.SweepKeepsAllowed` | src/lib/browser-storage.js:60-62 | a key on the allow-list is never removed |
| `BrowserStorage.SweepOnlyRemoves` | src/lib/browser-storage.js:54-64 | every remaining key was stored before |
| `BrowserStorage.SweepRemovalBound` | src/lib/browser-storage.js:57-63 | each removal is followed by a key that the advancing index skips |
| `BrowserStorage.SweepLeavesHalf` | src/lib/browser-storage.js:54-64 | at least half of the keys (rounded down) survive, whatever the allow-list |
| `BrowserStorage.SweepSkipsShiftedKey` | src/lib/browser-storage.js:57-63 | with an empty allow-list and keys `a`, `b`, key `a` is removed and `b` remains |
| `BrowserStorage.ClearAllExceptNotClearAll` | src/lib/browser-storage.js:51-64 | `clearAllExcept([])` does not always empty the storage |
| `Utils.CaseKeys` | src/lib/utils.js:7-47 | a value that is not a non-null object is returned as it is; an array keeps its length; an object comes back as an object without duplicate keys |
| `Utils.MapItems` | src/lib/utils.js:11-15 | the array keeps its length, and every element that is not an object is kept |
| `Utils.RecaseFields` | src/lib/utils.js:17-25 | the built object never has a key twice |
| `Utils.ToCase` | src/lib/utils.js:7-47 | the value returned by the loops is the one `CaseKeys` specifies |
| `Utils.CaseArray` | src/lib/utils.js:10-15 | the `map` loop yields `MapItems` of the elements |
| `Utils.CaseObject` | src/lib/utils.js:16-26 | the `for...of` loop yields `RecaseFields` of the entries |
| `Utils.CaseEntryValue` | src/lib/utils.js:20-22 | an entry's value goes through `toCase` in recursive mode |
| `Utils.MapItemsAt` | src/lib/utils.js:11-15 | each object element is re-cased in the same mode, and every other element is kept in place |
| `Utils.RecaseFieldsKeys` | src/lib/utils.js:19-20 | the new keys are exactly the images of the old keys |
| `Utils.RecaseFieldsLastWins` | src/lib/utils.js:19-23 | when several keys map to one new key, the last of them supplies the value |
| `Utils.NonRecursiveKeepsValues` | src/lib/utils.js:35-41 | in non-recursive mode, values are copied unchanged under their new keys |
| `Utils.RecursiveRecasesNested` | src/lib/utils.js:19-23 | in recursive mode, a nested object value is itself re-cased |
| `Utils.RecaseFixedKeys` | src/lib/utils.js:35-41 | an object whose keys the case function already fixes comes back unchanged |
| `Utils.RecaseIdempotent` | src/lib/utils.js:48-50 | with an idempotent case function, re-casing twice is the same as once |
| `Utils.KeysToCamelCase` | src/lib/utils.js:48-50 | a non-object is kept; an object's keys are exactly the camel-cased images of its keys |
| `Utils.KeysToKebabCase` | src/lib/utils.js:52-54 | a non-object is kept; an object's keys are exactly the kebab-cased images of its keys |
| `Utils.IsRealObjectExactly` | src/lib/utils.js:62-64 | `isRealObject` holds exactly for plain objects and objects tagged `Object` |
| `Utils.IsRealObject` | src/lib/utils.js:62-64 | only an object value can pass, never a primitive, null or an array |
| `AuthStore.DefaultState` | src/stores/auth.store.js:8-22 | the default state is signed out, with no flag set and both errors null |
| `AuthStore.Authenticated` | src/stores/auth.store.js:36 | a signed-in state has both a user and an access token |
| `AuthStore.AuthCheck` | src/stores/auth.store.js:39-40 | the guard throws exactly when the payload is present without a `user`; it accepts only a plain-object user with a truthy id and a truthy access token |
| `AuthStore.SetAuthenticatedResult` | src/stores/auth.store.js:39-53 | the action rejects exactly when the guard throws, and then with a TypeError; otherwise only the user and the two tokens can change |
| `AuthStore.ReloadKeepsSession` | src/stores/auth.store.js:27-33 | a reload restores the user and both tokens, so the session survives; flags and errors start from their defaults |
| `AuthStore.ClearErrorsKeepsRest` | src/stores/auth.store.js:107-110 | both errors become null and nothing else changes |
| `AuthStore.AcceptedDataAuthenticates` | src/stores/auth.store.js:39-44 | accepted data signs in with both tokens from the payload; the user is the payload's user with `profile_picture_base64` null; flags and errors are untouched |
| `AuthStore.RejectedDataKeepsState` | src/stores/auth.store.js:39-53 | every payload the guard rejects without throwing (none, a falsy user id, an empty or missing access token) leaves the state as it was |
| `AuthStore.MissingUserThrows` | src/stores/auth.store.js:40 | a payload without `user` makes the guard throw a TypeError |
| `AuthStore.ContinueTo` | src/stores/auth.store.js:75-81 | the target is `/` or the `continue` value; the `continue` value is followed exactly when it looks like a path and mentions no auth page |
| `AuthStore.ContinueAbsent` | src/stores/auth.store.js:75-81 | without a `continue` query the target is `/` |
| `AuthStore.ContinueRefusesLogin` | src/stores/auth.store.js:79 | a path beginning with `/login` is refused |
| `AuthStore.ContinueRefusesAuthWordsAnywhere` | src/stores/auth.store.js:79 | `signin`, `logout` and `signout` anywhere in the text are refused |
| `AuthStore.ContinueRefusesSpace` | src/stores/auth.store.js:79 | a slash followed by whitespace is refused |
| `AuthStore.ContinueFollowsProfile` | src/stores/auth.store.js:79-80 | a short ordinary path such as `/u/x` is followed |
| `AuthStore.LoginOutcome` | src/stores/auth.store.js:67-91 | every exit clears `isAuthenticating`; a rejected call records `response ?? message` and keeps the session; accepted data signs in and navigates; a throwing guard records the TypeError's message |
| `AuthStore.FetchUserOutcome` | src/stores/auth.store.js:92-106 | the user is replaced exactly when the payload has a truthy `id`; a rejection is recorded; the flag always ends cleared |
| `AuthStore.RevokeRequestToken` | src/stores/auth.store.js:56-59 | the revoke request is sent exactly when asked for, and carries the token held before the reset |
| `AuthStore.SignOutKeepsThemeMode` | src/stores/auth.store.js:61 | signing out never clears the stored theme mode |
| `AuthStore.AuthStore.constructor` | src/stores/auth.store.js:26 | a new store holds the default state |
| `AuthStore.AuthStore.Reset` | src/stores/auth.store.js:62 | `$reset` restores the default state |
| `AuthStore.AuthStore.ClearErrors` | src/stores/auth.store.js:107-110 | the new state is the old one with both errors cleared |
| `AuthStore.AuthStore.SetAuthenticated` | src/stores/auth.store.js:39-53 | either the state is the one accepted data gives and nothing is thrown, or the state is unchanged and the guard's TypeError is thrown |
| `AuthStore.AuthStore.SetUnauthenticated` | src/stores/auth.store.js:54-66 | resolves true; revokes the old token on request; resets the state; sweeps the storage, keeping the theme mode |
| `AuthStore.AuthStore.LoginBegin` | src/stores/auth.store.js:68-72 | before the call, the errors are cleared and `isAuthenticating` is set |
| `AuthStore.AuthStore.LoginComplete` | src/stores/auth.store.js:72-90 | the state and navigation target are those of `LoginFinished` |
| `AuthStore.AuthStore.LoginUser` | src/stores/auth.store.js:67-91 | the whole action ends in the state that `LoginOutcome` describes |
| `AuthStore.AuthStore.GetAuthUserBegin` | src/stores/auth.store.js:93-96 | before the call, the errors are cleared and `isFetchingAuthUser` is set |
| `AuthStore.AuthStore.GetAuthUserComplete` | src/stores/auth.store.js:96-105 | the state is the one `FetchUserFinished` gives |
| `AuthStore.AuthStore.GetAuthUser` | src/stores/auth.store.js:92-106 | the whole action ends in the state that `FetchUserOutcome` describes |
| `Js.ResponseOrMessage` | src/stores/auth.store.js:87 | the recorded error is the response when there is one, and the message otherwise |
| `PostStore.DefaultMetaHasNoNextPage` | src/stores/post.store.js:14-31 | empty metadata has a null `next_page_url` |
| `PostStore.PostsStructure` | src/stores/post.store.js:12-36 | an empty collection: no posts, not loading, no error, initial fetch pending |
| `PostStore.UserPostsStructure` | src/stores/post.store.js:37 | the same structure with a null `user_id` |
| `PostStore.DefaultPostState` | src/stores/post.store.js:38-41 | both collections empty, in their default structures |
| `PostStore.ActionMapping` | src/stores/post.store.js:43-46 | `fetch_posts` maps to the feed and `fetch_user_posts` to the user posts, and no other action maps to either |
| `PostStore.PostState.Set` | src/stores/post.store.js:62 | the named collection is replaced and the other is unchanged |
| `PostStore.Finally` | src/stores/post.store.js:109-118 | afterwards the collection is not loading and has had its initial load; data, metadata and error are kept |
| `PostStore.OnErrorCall` | src/stores/post.store.js:108 | `onError` is called, with the caught error, exactly when it is a function |
| `PostStore.PlanFor` | src/stores/post.store.js:68-94 | paginating while loading returns; a throw happens only when paginating without metadata; a reset only for `fetch_user_posts` without a user id; an appending request only when paginating, to a truthy `next_page_url`; a plain feed load requests the posts URL |
| `PostStore.GetPostsOutcome` | src/stores/post.store.js:52-119 | a request is made only for a known action; `onError` is called only when it is a function, and after a request only with the request's error |
| `PostStore.NewOnly` | src/stores/post.store.js:102 | the filter never yields more posts than the page has |
| `PostStore.AppendNew` | src/stores/post.store.js:100-102 | the loaded posts are kept as a prefix, and at most the page's posts are added |
| `PostStore.UnknownActionTouchesNothing` | src/stores/post.store.js:57-60 | an unknown action returns before making a request or touching the state |
| `PostStore.OtherCollectionUntouched` | src/stores/post.store.js:52-119 | `getPosts` changes only the collection its action names |
| `PostStore.FlagsSettleAfterwards` | src/stores/post.store.js:109-118 | on every path of a known action, the collection ends not loading and initially loaded |
| `PostStore.PaginationGuardStops` | src/stores/post.store.js:68-84 | paginating while loading, or without a next page, makes no request and only settles the flags |
| `PostStore.PaginatingFreshStoreStops` | src/stores/post.store.js:68-84 | paginating a fresh store makes no request |
| `PostStore.MissingMetaIsCaught` | src/stores/post.store.js:69-108 | paginating without metadata throws before any request; the TypeError is recorded and handed to `onError` |
| `PostStore.FreshLoadReplaces` | src/stores/post.store.js:85-104 | a non-paginated load is in flight with the loading flag set, and on success it replaces the data and the metadata |
| `PostStore.UserPostsLoadFromProfile` | src/stores/post.store.js:86-87 | the user's posts are requested from the profile URL with the query |
| `PostStore.UserPostsWithoutIdReset` | src/stores/post.store.js:86-92 | `fetch_user_posts` without a user id resets the user posts, makes no request and leaves the feed alone |
| `PostStore.PaginatedLoadAppends` | src/stores/post.store.js:78-104 | pagination requests `next_page_url`, appends the page's new posts and takes its metadata |
| `PostStore.FailureKeepsData` | src/stores/post.store.js:105-108 | a failed request keeps data and metadata, records the error and passes it to `onError` exactly when that is a function |
| `PostStore.GetPostsKeepsUserIdUnset` | src/stores/post.store.js:52-119 | `getPosts` never assigns `user_id` |
| `PostStore.OtherActionsKeepUserIdUnset` | src/stores/post.store.js:37 | update, create, clearing errors and reset never assign `user_id` either |
| `PostStore.OwnerSwitchNeverTaken` | src/stores/post.store.js:72-76 | with `user_id` unset, a paginated request always follows `next_page_url` and appends |
| `PostStore.NewOnlyMembers` | src/stores/post.store.js:102 | a page post is added exactly when no loaded post has its id |
| `PostStore.NewOnlyConcat` | src/stores/post.store.js:102 | the new posts keep page order |
| `PostStore.NewOnlyNothingNew` | src/stores/post.store.js:102 | a page whose ids are all loaded adds nothing |
| `PostStore.AppendTwiceSameAsOnce` | src/stores/post.store.js:100-102 | appending the same page twice adds its posts once |
| `PostStore.PageDuplicatesKept` | src/stores/post.store.js:102 | two copies of a new post in one page both land |
| `PostStore.FindIndex` | src/stores/post.store.js:156 | the index of the first post with the id, or -1 when no post has it |
| `PostStore.ReplaceFirst` | src/stores/post.store.js:156-160 | the list keeps its length |
| `PostStore.ReplaceFirstExactly` | src/stores/post.store.js:154-162 | only the first post with the incoming id is replaced, and only when that id is truthy |
| `PostStore.ReplaceFirstIdempotent` | src/stores/post.store.js:154-162 | replacing twice with the same post is the same as once |
| `PostStore.UpdatedState` | src/stores/post.store.js:154-162 | both collections keep their length, and nothing but their data changes |
| `PostStore.UpdateWithoutIdKeepsState` | src/stores/post.store.js:158 | a payload without a truthy id changes nothing |
| `PostStore.CreatedState` | src/stores/post.store.js:150 | the created post heads the feed, followed by the old feed; the user posts are untouched |
| `PostStore.ErrorsCleared` | src/stores/post.store.js:163-167 | both errors are cleared and nothing else changes |
| `PostStore.PostUrl` | src/stores/post.store.js:121 | `getPost` requests the posts URL followed by the id |
| `PostStore.PostImagesUrl` | src/stores/post.store.js:129-135 | `getPostImages` requests the post URL followed by `/images` |
| `PostStore.LikeRequest` | src/stores/post.store.js:137-139 | a liked post is unliked with DELETE and any other post is liked with POST; a missing post throws |
| `PostStore.PostStore.constructor` | src/stores/post.store.js:50 | a new store holds the default state |
| `PostStore.PostStore.Reset` | src/stores/post.store.js:38-41 | `$reset` restores the default state |
| `PostStore.PostStore.RunFinally` | src/stores/post.store.js:109-118 | the `finally` block on the named collection, as `Finally` specifies |
| `PostStore.PostStore.GetPostsBegin` | src/stores/post.store.js:52-96 | the step reached and the state left before the request are `BeginStep` and `BeginState` |
| `PostStore.PostStore.GetPostsComplete` | src/stores/post.store.js:98-118 | the state after the request settles is `CompleteState`, and `onError` receives a failure |
| `PostStore.PostStore.GetPosts` | src/stores/post.store.js:52-119 | the whole action's state, request and `onError` call are those of `GetPostsOutcome` |
| `PostStore.PostStore.UpdatePostByIndex` | src/stores/post.store.js:154-162 | the loop over both collections leaves `UpdatedState` |
| `PostStore.PostStore.CreatePost` | src/stores/post.store.js:145-153 | on success the post is prepended to the feed and returned; a failure changes nothing |
| `PostStore.PostStore.GetPost` | src/stores/post.store.js:120-128 | requests the post URL, returns the post, and replaces its listed copies |
| `PostStore.PostStore.LikeOrUnlikePost` | src/stores/post.store.js:136-144 | sends the like or unlike request, and replaces the listed copies with the response's `post`; a missing post or body throws |
| `PostStore.PostStore.ClearErrors` | src/stores/post.store.js:163-167 | the loop over both collections leaves `ErrorsCleared` |
| `Stores.LogoutUser` | src/stores/index.js:4-10 | the session is reset and the storage swept first, then the posts are reset; the revoke request carries the old token when asked for |
| `Stores.LogoutUserByDefault` | src/stores/index.js:4 | the default argument revokes the token; both stores are reset and the storage is swept, and every item left in storage keeps its value |
| `Stores.SignedOutState` | src/stores/index.js:4-10 | after signing out nobody is signed in, both collections are empty, the theme mode survives, and at least half of the keys, rounded down, survive |
| `ApiClient.RequestHeaders` | src/lib/api-client.js:17-39 | the bearer header is added exactly when the request is eligible; Content-Type defaults to JSON; the ngrok header is set behind ngrok; other headers are kept |
| `ApiClient.UserRequestCarriesBearer` | src/lib/api-client.js:22-26 | a signed-in request to the user URL carries the bearer token |
| `ApiClient.LoginRequestHasNoBearer` | src/lib/api-client.js:22-26 | a login request never gets a bearer header |
| `ApiClient.SignedOutAddsNoBearer` | src/lib/api-client.js:24 | a signed-out session adds no bearer header |
| `ApiClient.InterceptRequest` | src/lib/api-client.js:17-39 | the config's headers become `RequestHeaders` of the old headers |
| `ApiClient.RefreshEligible` | src/lib/api-client.js:54-70 | a refresh is attempted only for a response from a signed-in session |
| `ApiClient.FailureActionFor` | src/lib/api-client.js:81-88 | a failure without a response keeps the session; a 401 or an `auth_` code signs out; the `catch` block throws only on a present, non-string `error_code` |
| `ApiClient.HandlerResult` | src/lib/api-client.js:54-93 | a rejection without a response is passed on as it is; a retried response requires an eligible request, a successful refresh and a successful retry; a thrown TypeError requires an eligible request |
| `ApiClient.IneligibleRejectsOriginal` | src/lib/api-client.js:54-93 | without every refresh condition, the handler rejects with the original error and changes nothing |
| `ApiClient.LogoutRequestNotRefreshed` | src/lib/api-client.js:61-67 | a 401 on a logout request is never refreshed |
| `ApiClient.SuccessfulRefreshRetries` | src/lib/api-client.js:70-80 | a successful refresh and retry settle with the retried response, and the session holds the new tokens |
| `ApiClient.RetryCarriesNewToken` | src/lib/api-client.js:76-80 | the retried request carries the new access token |
| `ApiClient.FailureSwallowed` | src/lib/api-client.js:81-93 | a failure is swallowed, so the caller gets the original error; sign-out happens exactly for a 401 or an `auth_` code, and leaves nobody signed in |
| `ApiClient.NumericErrorCodeThrows` | src/lib/api-client.js:84 | a numeric `error_code` makes the `catch` block throw a TypeError, and nobody is signed out |
| `ApiClient.HandleResponseError` | src/lib/api-client.js:47-94 | the outcome, the session and the refresh request are those of `HandlerResult`; posts and storage are reset exactly when the handler signs out, and every item left in storage keeps its value |
| `ApiClient.RefreshAndRetry` | src/lib/api-client.js:71-88 | the `try`/`catch` block gives `CatchOutcome` of the first failure, and signs out exactly when that failure asks for it; every item left in storage keeps its value |
| `ApiClient.WithValidationFlag` | src/lib/api-client.js:109 | `hasValidationErrors` is whether the status is 422, and every other field is kept |
| `ApiClient.WithErrorsObject` | src/lib/api-client.js:110 | the assignment succeeds exactly when `data` is an object, and no field but `data` changes |
| `ApiClient.Normalized` | src/lib/api-client.js:99-110 | the normaliser throws exactly when a received response has no object `data`; `hasValidationErrors` is whether a received response has status 422 |
| `ApiClient.MissingResponseSynthesized` | src/lib/api-client.js:100-110 | a missing response becomes `state` 500 with no `status`, the message or the stock message, no validation errors and empty `errors` |
| `ApiClient.NormalizedFlags` | src/lib/api-client.js:109-110 | the flag is true exactly for status 422, and `data.errors` is an object, kept when it already was one |
| `ApiClient.MissingDataThrows` | src/lib/api-client.js:110 | a response without `data` makes the normaliser throw after setting the flag |
| `ApiClient.NormalizeIdempotent` | src/lib/api-client.js:97-114 | normalising a normalised response changes nothing |
| `ApiClient.NormalizeError` | src/lib/api-client.js:99-113 | the error's response becomes the normalised response, and the method reports whether it threw |
| `ApiClient.Send` | src/lib/api-client.js:17-114 | a request through all interceptors: success passes through and changes no store or storage; a failure settles as the handler's outcome, with a rejection normalised, and resets the posts and sweeps the storage exactly when the handler signs out; every item left in storage keeps its value |
| `ApiClient.SettleOutcome` | src/lib/api-client.js:97-114 | a retried response fulfils, and a rejection passes through the normaliser |

## Left out

- Network I/O, timers and concurrency. Every awaited call is an input holding its result. Two actions never interleave.
- `console.log` output.
- The revoke request's promise, whose failure is ignored.
- The profile-picture download in `setAuthenticated`, which runs after the action has settled. `base64ImageFromUrl` is not part of this model.
- `router.replace` in `loginUser` is modelled as the returned navigation target. A rejected navigation is not modelled.
- `delay`, `preventDefaultAndStopPropagation`, `randomHash` and `isJwtToken` use timers, events, cryptography and JWT decoding. They are not part of this model.
- `JSON.stringify` and `JSON.parse` are an abstract codec, a parameter of the storage wrapper. Their text format is not modelled.
- `_.merge` is modelled one level deep. Nested objects are not merged recursively.
- The camel-case and kebab-case converters are parameters. Their string algorithms are not modelled.
- Header names are compared exactly. The case-insensitive header handling of the HTTP library is not modelled.
- Route matching is case-sensitive and ignores at most one trailing slash. The router's case-insensitive matching is not modelled.
- URLs are compared as literal prefixes where the code builds regular expressions from them. Regex metacharacters in a configured URL are not modelled.
- A post id is compared by structural equality. JavaScript's `===` on object ids is identity.
- A page whose items are null or undefined, and a response body without `data` or `meta` in `getPosts`, are not modelled.
- `PostStore.PostStore.CreatePost` takes the created post as a value. A response whose body is null or undefined, which the code would still put at the head of the feed, is not modelled.
- `getPosts` params that are not an object, and a non-object `query`, are not modelled.
- The retried request in the 401 handler settles directly. Passing the retry back through the response interceptors is not modelled.
- `ApiClient.WithErrorsObject` leaves `data` unchanged when it is an array or a non-plain object. The `errors` property that the code adds to such a value is not represented.
- The `user_posts.user_id` owner check of `getPosts` is modelled as written. No reachable state exercises it.
- Function values (`onError`) are reduced to whether `onError` is a function.
- `BrowserStorage.LocalStorage.SetItem` gives a new key the last index. The Web Storage standard leaves the order of keys to the browser, so this is a model choice. The results about `clearAllExcept` that depend on index order hold under this choice only.
- `BrowserStorage.LocalStorage.RemoveItem` moves every later key down one index. This is the same model choice of key order.
- `AuthStore.AuthStore.SetUnauthenticated` and `Stores.LogoutUser` state the storage after the sweep only. The persistence plugin of the Pinia store writes the `auth` key again after `$reset`, with null user and tokens. That write is not modelled, so in the running app the `auth` key is present after sign-out.
- `AuthStore.AuthStore.SetAuthenticated`, and every other change to the user or the tokens, is not written through to the `auth` key of the storage. The persistence plugin is modelled only by `AuthStore.Rehydrate` at reload.
- `Js.TypeError` carries one fixed message. The exact text a JavaScript engine gives a TypeError is engine-specific and is not modelled.
- `Utils.RecaseFields` keeps the entries in the order they were assigned. A JavaScript object lists integer-like keys first, in ascending order, and that enumeration order is not modelled. `Utils.RecaseFieldsLastWins` is about values and does not depend on it.

=== FILE: api_client.dfy ===
/** The HTTP client's interceptors: the request interceptor that adds headers, the
    first response interceptor that refreshes an expired access token and retries,
    and the second that normalises every rejected response. The transport, the
    refresh call (which bypasses the interceptors) and the retried request are
    inputs: each is the value it resolved to or the error it was rejected with. */
module ApiClient {
  import opened Js
  import opened Urls
  import BrowserStorage
  import AuthStore
  import PostStore
  import Stores

  // ----- request interceptor -----

  /** `authUrlRegex.test(url)`: the URL starts with the register, login or refresh URL. */
  predicate IsAuthUrl(env: Env, url: string)
  {
    StartsWith(url, AuthRegisterUrl(env)) || StartsWith(url, AuthLoginUrl(env)) || StartsWith(url, AuthRefreshUrl(env))
  }

  /** The request gets the bearer token: not marked `extra.noAuth`, the session is
      signed in, and the URL is not one of the token-issuing endpoints. */
  predicate AttachesBearer(env: Env, url: string, extra: JsValue, auth: AuthStore.AuthState)
  {
    !Truthy(OptProp(extra, "noAuth")) && AuthStore.Authenticated(auth) && !IsAuthUrl(env, url)
  }

  /** The deployment is served through an ngrok tunnel. */
  predicate BehindNgrok(env: Env)
  {
    EndsWith(env.apiBase, ".ngrok-free.app")
  }

  /** The headers the request interceptor leaves. */
  function RequestHeaders(headers: Fields, url: string, extra: JsValue, auth: AuthStore.AuthState, env: Env): (r: Fields)
    ensures Lookup(r, "Authorization") ==
              if AttachesBearer(env, url, extra, auth) then Str("Bearer " + ToJsString(auth.accessToken))
              else Lookup(headers, "Authorization")
    ensures Lookup(r, "Content-Type") ==
              if Lookup(headers, "Content-Type") == Undefined then Str("application/json")
              else Lookup(headers, "Content-Type")
    ensures Lookup(r, "ngrok-skip-browser-warning") ==
              if BehindNgrok(env) then Str("true") else Lookup(headers, "ngrok-skip-browser-warning")
    ensures forall k :: k !in {"Authorization", "Content-Type", "ngrok-skip-browser-warning"} ==>
              Lookup(r, k) == Lookup(headers, k)
  {
    assert "Authorization" != "Content-Type" && "Authorization" != "ngrok-skip-browser-warning";
    assert "Content-Type" != "ngrok-skip-browser-warning";
    var h1 := if AttachesBearer(env, url, extra, auth) then Put(headers, "Authorization", Str("Bearer " + ToJsString(auth.accessToken))) else headers;
    var h2 := if Lookup(h1, "Content-Type") == Undefined then Put(h1, "Content-Type", Str("application/json")) else h1;
    if BehindNgrok(env) then Put(h2, "ngrok-skip-browser-warning", Str("true")) else h2
  }

  /** A signed-in request to the current-user endpoint carries the access token. */
  lemma UserRequestCarriesBearer(headers: Fields, extra: JsValue, auth: AuthStore.AuthState, env: Env)
    requires AuthStore.Authenticated(auth) && !Truthy(OptProp(extra, "noAuth"))
    ensures Lookup(RequestHeaders(headers, AuthUserUrl(env), extra, auth, env), "Authorization") ==
              Str("Bearer " + ToJsString(auth.accessToken))
  {
    UserAndLogoutNotExempt(env);
  }

  /** The login request never gets a bearer header added, signed in or not. */
  lemma LoginRequestHasNoBearer(headers: Fields, extra: JsValue, auth: AuthStore.AuthState, env: Env)
    ensures Lookup(RequestHeaders(headers, AuthLoginUrl(env), extra, auth, env), "Authorization") ==
              Lookup(headers, "Authorization")
  {
    assert StartsWith(AuthLoginUrl(env), AuthLoginUrl(env));
  }

  /** A signed-out session adds no bearer header anywhere. */
  lemma SignedOutAddsNoBearer(headers: Fields, url: string, extra: JsValue, auth: AuthStore.AuthState, env: Env)
    requires !AuthStore.Authenticated(auth)
    ensures Lookup(RequestHeaders(headers, url, extra, auth, env), "Authorization") == Lookup(headers, "Authorization")
  {
  }

  /** The request options (`config`): the URL, the method, the app's own `extra`
      options and the headers, which the interceptors modify in place. */
  class RequestConfig {
    const url: string
    const verb: string
    const extra: JsValue
    var headers: Fields

    constructor (url: string, verb: string, extra: JsValue, headers: Fields)
      ensures this.url == url && this.verb == verb && this.extra == extra && this.headers == headers
    {
      this.url := url;
      this.verb := verb;
      this.extra := extra;
      this.headers := headers;
    }
  }

  /** The request interceptor, with the session store's state at the time of the request. */
  method InterceptRequest(config: RequestConfig, auth: AuthStore.AuthState, env: Env)
    modifies config
    ensures config.headers == RequestHeaders(old(config.headers), config.url, config.extra, auth, env)
  {
    if !Truthy(OptProp(config.extra, "noAuth")) && AuthStore.Authenticated(auth) && !IsAuthUrl(env, config.url) {
      config.headers := Put(config.headers, "Authorization", Str("Bearer " + ToJsString(auth.accessToken)));
    }
    if Lookup(config.headers, "Content-Type") == Undefined {
      config.headers := Put(config.headers, "Content-Type", Str("application/json"));
    }
    if EndsWith(env.apiBase, ".ngrok-free.app") {
      config.headers := Put(config.headers, "ngrok-skip-browser-warning", Str("true"));
    }
  }

  // ----- first response interceptor: refresh and retry -----

  /** `error.response?.status` */
  function Status(response: Option<Fields>): JsValue
  {
    match response
    case None => Undefined
    case Some(fs) => Lookup(fs, "status")
  }

  /** `error.response?.data?.error_code` */
  function ErrorCode(response: Option<Fields>): JsValue
  {
    match response
    case None => Undefined
    case Some(fs) => OptProp(Lookup(fs, "data"), "error_code")
  }

  /** A rejected request is answered by refreshing the token and retrying: the status
      is 401, the session was signed in, the server says the access token expired,
      the request was not the logout request, and there is a refresh token. */
  predicate RefreshEligible(env: Env, auth: AuthStore.AuthState, url: string, response: Option<Fields>)
    ensures RefreshEligible(env, auth, url, response) ==> response.Some? && AuthStore.Authenticated(auth)
  {
    Status(response) == Num(401) &&
    AuthStore.Authenticated(auth) &&
    ErrorCode(response) == Str("auth_expired_token") &&
    !StartsWith(url, AuthLogoutUrl(env)) &&
    Truthy(auth.refreshToken)
  }

  /** What the `catch` block does with the failure of the refresh, the token update or
      the retry: sign out, carry on, or throw a TypeError of its own (an `error_code`
      that is present but not a string has no `startsWith` to call). */
  datatype FailureAction = SignOut | KeepSession | ThrowTypeError

  function FailureActionFor(e: JsError): (r: FailureAction)
    ensures e.response.None? ==> r == KeepSession
    ensures Status(e.response) == Num(401) ==> r == SignOut
    ensures r == ThrowTypeError ==> e.response.Some? && !Nullish(ErrorCode(e.response)) && !ErrorCode(e.response).Str?
    ensures ErrorCode(e.response).Str? && StartsWith(ErrorCode(e.response).s, "auth_") ==> r == SignOut
  {
    if Status(e.response) == Num(401) then SignOut
    else
      var code := ErrorCode(e.response);
      if Nullish(code) then KeepSession
      else if code.Str? then (if StartsWith(code.s, "auth_") then SignOut else KeepSession)
      else ThrowTypeError
  }

  /** The failure the `catch` block receives, if any: the first of the refresh call,
      the token update and the retried request to fail. */
  function CaughtFailure(auth: AuthStore.AuthState, refresh: Result<JsValue>, retry: Result<JsValue>): Option<JsError>
  {
    match refresh
    case Err(e) => Some(e)
    case Ok(tokenData) =>
      match AuthStore.SetAuthenticatedResult(auth, tokenData)
      case Err(e) => Some(e)
      case Ok(_) =>
        match retry
        case Err(e) => Some(e)
        case Ok(_) => None
  }

  /** The session after the refresh and the token update, whichever of them happened. */
  function AfterRefresh(auth: AuthStore.AuthState, refresh: Result<JsValue>): AuthStore.AuthState
  {
    match refresh
    case Err(_) => auth
    case Ok(tokenData) =>
      match AuthStore.SetAuthenticatedResult(auth, tokenData)
      case Err(_) => auth
      case Ok(t) => t
  }

  /** How the first response interceptor settles a rejected request: with the retried
      request's response, by rejecting with the original error, or by rejecting with
      an error thrown in its own `catch` block. */
  datatype HandlerOutcome = Retried(value: JsValue) | RejectOriginal | RejectWith(error: JsError)

  function HandlerResult(env: Env, auth: AuthStore.AuthState, url: string, response: Option<Fields>,
                         refresh: Result<JsValue>, retry: Result<JsValue>): (r: HandlerOutcome)
    ensures response.None? ==> r == RejectOriginal
    ensures r.Retried? ==> RefreshEligible(env, auth, url, response) && retry == Ok(r.value) && refresh.Ok?
    ensures r.RejectWith? ==> RefreshEligible(env, auth, url, response) && r.error == TypeError()
  {
    if !RefreshEligible(env, auth, url, response) then RejectOriginal
    else CatchOutcome(CaughtFailure(auth, refresh, retry), retry)
  }

  /** The outcome once the refresh was attempted: the retried response when nothing
      failed, otherwise the original error unless the `catch` block throws. */
  function CatchOutcome(failure: Option<JsError>, retry: Result<JsValue>): HandlerOutcome
    requires failure.None? ==> retry.Ok?
  {
    match failure
    case None => Retried(retry.value)
    case Some(e) => if FailureActionFor(e) == ThrowTypeError then RejectWith(TypeError()) else RejectOriginal
  }

  /** The handler signs the user out (`logoutUser(false)`). */
  predicate HandlerSignsOut(env: Env, auth: AuthStore.AuthState, url: string, response: Option<Fields>,
                            refresh: Result<JsValue>, retry: Result<JsValue>)
  {
    RefreshEligible(env, auth, url, response) &&
    CaughtFailure(auth, refresh, retry).Some? &&
    FailureActionFor(CaughtFailure(auth, refresh, retry).value) == SignOut
  }

  /** The session the handler leaves. */
  function HandlerAuthState(env: Env, auth: AuthStore.AuthState, url: string, response: Option<Fields>,
                            refresh: Result<JsValue>, retry: Result<JsValue>): AuthStore.AuthState
  {
    if !RefreshEligible(env, auth, url, response) then auth
    else if HandlerSignsOut(env, auth, url, response, refresh, retry) then AuthStore.DefaultState()
    else AfterRefresh(auth, refresh)
  }

  /** Without every refresh condition the handler changes nothing and rejects with the
      original error. */
  lemma IneligibleRejectsOriginal(env: Env, auth: AuthStore.AuthState, url: string, response: Option<Fields>,
                                  refresh: Result<JsValue>, retry: Result<JsValue>)
    requires !RefreshEligible(env, auth, url, response)
    ensures HandlerResult(env, auth, url, response, refresh, retry) == RejectOriginal
    ensures HandlerAuthState(env, auth, url, response, refresh, retry) == auth
    ensures !HandlerSignsOut(env, auth, url, response, refresh, retry)
  {
  }

  /** A 401 on the logout request is never refreshed. */
  lemma LogoutRequestNotRefreshed(env: Env, auth: AuthStore.AuthState, rest: string, response: Option<Fields>)
    ensures !RefreshEligible(env, auth, AuthLogoutUrl(env) + rest, response)
  {
    assert (AuthLogoutUrl(env) + rest)[..|AuthLogoutUrl(env)|] == AuthLogoutUrl(env);
  }

  /** When the refresh, the token update and the retry all succeed, the caller gets
      the retried response and the session holds the new tokens. */
  lemma SuccessfulRefreshRetries(env: Env, auth: AuthStore.AuthState, url: string, response: Option<Fields>,
                                 tokenData: JsValue, retried: JsValue)
    requires RefreshEligible(env, auth, url, response)
    requires AuthStore.AuthCheck(tokenData) == Some(true)
    ensures HandlerResult(env, auth, url, response, Ok(tokenData), Ok(retried)) == Retried(retried)
    ensures var t := HandlerAuthState(env, auth, url, response, Ok(tokenData), Ok(retried));
            AuthStore.Authenticated(t) && t.accessToken == Prop(tokenData, "access_token") &&
            t.refreshToken == Prop(tokenData, "refresh_token")
  {
    AuthStore.AcceptedDataAuthenticates(auth, tokenData);
  }

  /** The retried request passes through the request interceptor again and so
      carries the new access token. */
  lemma RetryCarriesNewToken(env: Env, auth: AuthStore.AuthState, headers: Fields, url: string, extra: JsValue,
                             tokenData: JsValue)
    requires AuthStore.AuthCheck(tokenData) == Some(true)
    requires !Truthy(OptProp(extra, "noAuth")) && !IsAuthUrl(env, url)
    ensures Lookup(RequestHeaders(headers, url, extra, AfterRefresh(auth, Ok(tokenData)), env), "Authorization") ==
              Str("Bearer " + ToJsString(Prop(tokenData, "access_token")))
  {
    AuthStore.AcceptedDataAuthenticates(auth, tokenData);
  }

  /** A failed refresh or retry is swallowed: the caller gets the original error,
      unless the `catch` block itself throws; the user is signed out exactly when the
      failure is a 401 or carries an `auth_` error code. */
  lemma FailureSwallowed(env: Env, auth: AuthStore.AuthState, url: string, response: Option<Fields>,
                         refresh: Result<JsValue>, retry: Result<JsValue>)
    requires RefreshEligible(env, auth, url, response)
    requires CaughtFailure(auth, refresh, retry).Some?
    ensures var e := CaughtFailure(auth, refresh, retry).value;
            (FailureActionFor(e) != ThrowTypeError ==> HandlerResult(env, auth, url, response, refresh, retry) == RejectOriginal) &&
            (HandlerSignsOut(env, auth, url, response, refresh, retry) <==>
               Status(e.response) == Num(401) ||
               (ErrorCode(e.response).Str? && StartsWith(ErrorCode(e.response).s, "auth_"))) &&
            (HandlerSignsOut(env, auth, url, response, refresh, retry) ==>
               !AuthStore.Authenticated(HandlerAuthState(env, auth, url, response, refresh, retry)))
  {
  }

  /** A failure whose `error_code` is a number makes the `catch` block throw, so the
      caller receives a TypeError instead of the original error, and nobody is signed out. */
  lemma NumericErrorCodeThrows(env: Env, auth: AuthStore.AuthState, url: string, response: Option<Fields>,
                               status: int, code: int)
    requires RefreshEligible(env, auth, url, response) && status != 401
    ensures var failure := JsError(Some([("status", Num(status)), ("data", Obj([("error_code", Num(code))]))]), "");
            HandlerResult(env, auth, url, response, Err(failure), Err(failure)) == RejectWith(TypeError()) &&
            !HandlerSignsOut(env, auth, url, response, Err(failure), Err(failure))
  {
    var failure := JsError(Some([("status", Num(status)), ("data", Obj([("error_code", Num(code))]))]), "");
    assert "data" != "status";
    var fs := failure.response.value;
    assert Lookup(fs, "data") == Obj([("error_code", Num(code))]);
    assert Lookup([("error_code", Num(code))], "error_code") == Num(code);
    assert Status(failure.response) == Num(status);
    assert ErrorCode(failure.response) == Num(code);
  }

  /** A rejected request as the interceptors see it: its URL and message, and its
      `response`, which the normaliser rewrites in place. */
  class ErrorObject {
    var response: Option<Fields>
    const message: string
    const url: string

    constructor (response: Option<Fields>, message: string, url: string)
      ensures this.response == response && this.message == message && this.url == url
    {
      this.response := response;
      this.message := message;
      this.url := url;
    }

    /** The error as a value. */
    function Value(): JsError
      reads this
    {
      JsError(response, message)
    }
  }

  /** The first response interceptor's error handler. The session store, the post
      store and the storage are the ones `logoutUser(false)` resets; `refreshRequest`
      is the refresh token sent to the refresh endpoint, if a refresh was attempted. */
  method HandleResponseError(error: ErrorObject, env: Env, auth: AuthStore.AuthStore, posts: PostStore.PostStore,
                             storage: BrowserStorage.LocalStorage, refresh: Result<JsValue>, retry: Result<JsValue>)
    returns (outcome: HandlerOutcome, refreshRequest: Option<JsValue>)
    requires storage.Valid()
    modifies auth, posts, storage
    ensures var s := old(auth.State());
            outcome == HandlerResult(env, s, error.url, error.response, refresh, retry) &&
            auth.State() == HandlerAuthState(env, s, error.url, error.response, refresh, retry) &&
            refreshRequest == (if RefreshEligible(env, s, error.url, error.response) then Some(s.refreshToken) else None)
    ensures var s := old(auth.State());
            if HandlerSignsOut(env, s, error.url, error.response, refresh, retry) then
              posts.State() == PostStore.DefaultPostState() &&
              storage.keyList == BrowserStorage.SweepFrom(old(storage.keyList), BrowserStorage.ExceptList(AuthStore.KeptOnSignOut), 0)
            else
              posts.State() == old(posts.State()) && storage.keyList == old(storage.keyList) && storage.items == old(storage.items)
    ensures forall k :: k in storage.items ==> k in old(storage.items) && storage.items[k] == old(storage.items)[k]
    ensures storage.Valid()
  {
    outcome := RejectOriginal;
    refreshRequest := None;
    if Status(error.response) == Num(401) {
      var isAuthenticated := auth.IsAuthenticated();
      var refreshToken := auth.refreshToken;
      var isLogoutRequest := StartsWith(error.url, AuthLogoutUrl(env));
      if isAuthenticated && ErrorCode(error.response) == Str("auth_expired_token") && !isLogoutRequest {
        if Truthy(refreshToken) {
          refreshRequest := Some(refreshToken);
          outcome := RefreshAndRetry(auth, posts, storage, refresh, retry);
        }
      }
    }
  }

  /** The `try`/`catch` block of the handler: refresh, store the new tokens, retry the
      original request, and on a failure of any of them sign out when the failure asks
      for it. */
  method RefreshAndRetry(auth: AuthStore.AuthStore, posts: PostStore.PostStore, storage: BrowserStorage.LocalStorage,
                         refresh: Result<JsValue>, retry: Result<JsValue>)
    returns (outcome: HandlerOutcome)
    requires storage.Valid()
    modifies auth, posts, storage
    ensures var s := old(auth.State());
            var failure := CaughtFailure(s, refresh, retry);
            outcome == CatchOutcome(failure, retry) &&
            if failure.Some? && FailureActionFor(failure.value) == SignOut then
              auth.State() == AuthStore.DefaultState() &&
              posts.State() == PostStore.DefaultPostState() &&
              storage.keyList == BrowserStorage.SweepFrom(old(storage.keyList), BrowserStorage.ExceptList(AuthStore.KeptOnSignOut), 0)
            else
              auth.State() == AfterRefresh(s, refresh) &&
              posts.State() == old(posts.State()) && storage.keyList == old(storage.keyList) && storage.items == old(storage.items)
    ensures forall k :: k in storage.items ==> k in old(storage.items) && storage.items[k] == old(storage.items)[k]
    ensures storage.Valid()
  {
    outcome := RejectOriginal;
    var failure: Option<JsError> := None;
    match refresh {
      case Err(e) =>
        failure := Some(e);
      case Ok(tokenData) =>
        failure := auth.SetAuthenticated(tokenData);
        if failure.None? {
          match retry {
            case Err(e) =>
              failure := Some(e);
            case Ok(value) =>
              outcome := Retried(value);
          }
        }
    }
    if failure.Some? {
      var e := failure.value;
      var action := FailureActionFor(e);
      if action == ThrowTypeError {
        outcome := RejectWith(TypeError());
      } else if action == SignOut {
        var _ := Stores.LogoutUser(auth, posts, storage, false);
      }
    }
  }

  // ----- second response interceptor: normalisation -----

  /** The response a rejected request without one is given: `state` (not `status`)
      500 and the error's message, or a stock message when that is empty. */
  function SynthesizedResponse(message: string): Fields
  {
    [("state", Num(500)), ("data", Obj([("message", Str(if message == "" then "Internal Server Error" else message))]))]
  }

  /** The response with `hasValidationErrors` set. */
  function WithValidationFlag(fs: Fields): (r: Fields)
    ensures Lookup(r, "hasValidationErrors") == Bool(Lookup(fs, "status") == Num(422))
    ensures forall k :: k != "hasValidationErrors" ==> Lookup(r, k) == Lookup(fs, k)
  {
    Put(fs, "hasValidationErrors", Bool(Lookup(fs, "status") == Num(422)))
  }

  /** The response with `data.errors` made an object, or `None` where the assignment
      throws: `data` missing (reading `errors` of it) or a primitive (assigning a
      property to it). A non-plain object keeps a property this model does not
      represent and is left as it is. */
  function WithErrorsObject(fs: Fields): (r: Option<Fields>)
    ensures r.Some? <==> IsObjectLike(Lookup(fs, "data"))
    ensures r.Some? ==> forall k :: k != "data" ==> Lookup(r.value, k) == Lookup(fs, k)
  {
    match Lookup(fs, "data")
    case Obj(gs) =>
      var errors := Lookup(gs, "errors");
      Some(Put(fs, "data", Obj(Put(gs, "errors", if IsObjectLike(errors) then errors else Obj([])))))
    case Arr(_) => Some(fs)
    case Tagged(_) => Some(fs)
    case _ => None
  }

  /** The response the normaliser leaves on the error, and whether it threw a
      TypeError part-way (after setting `hasValidationErrors`). */
  function Normalized(response: Option<Fields>, message: string): (r: (Fields, bool))
    ensures r.1 <==> response.Some? && !IsObjectLike(Lookup(response.value, "data"))
    ensures Lookup(r.0, "hasValidationErrors") == Bool(response.Some? && Lookup(response.value, "status") == Num(422))
  {
    var fs := match response case Some(fs) => fs case None => SynthesizedResponse(message);
    assert "data" != "hasValidationErrors" && "state" != "status" && "data" != "status";
    assert response.None? ==> Lookup(fs, "data").Obj? && Lookup(fs, "status") == Undefined;
    var flagged := WithValidationFlag(fs);
    match WithErrorsObject(flagged)
    case Some(r) => (r, false)
    case None => (flagged, true)
  }

  /** A rejected request without a response gets one with `state` 500 (and no
      `status`), the error's message or the stock message, no validation errors and
      an empty `errors` object. */
  lemma MissingResponseSynthesized(message: string)
    ensures var (r, threw) := Normalized(None, message);
            !threw &&
            Lookup(r, "state") == Num(500) && Lookup(r, "status") == Undefined &&
            Lookup(r, "hasValidationErrors") == Bool(false) &&
            Lookup(r, "data").Obj? &&
            Lookup(Lookup(r, "data").fields, "message") == Str(if message == "" then "Internal Server Error" else message) &&
            Lookup(Lookup(r, "data").fields, "errors") == Obj([])
  {
    var fs := SynthesizedResponse(message);
    assert "state" != "status" && "data" != "status" && "state" != "data";
    assert "data" != "hasValidationErrors" && "state" != "hasValidationErrors" && "status" != "hasValidationErrors";
    assert Lookup(fs, "status") == Undefined;
    var data := Obj([("message", Str(if message == "" then "Internal Server Error" else message))]);
    assert Lookup(fs, "data") == data;
    var flagged := WithValidationFlag(fs);
    assert Lookup(flagged, "data") == Lookup(fs, "data");
    assert Lookup(flagged, "state") == Num(500);
  }

  /** `hasValidationErrors` is true exactly for status 422, and `data.errors` is an
      object afterwards, kept when it already was one. */
  lemma NormalizedFlags(fs: Fields, message: string)
    requires Lookup(fs, "data").Obj?
    ensures var (r, threw) := Normalized(Some(fs), message);
            var errors := Lookup(Lookup(fs, "data").fields, "errors");
            !threw &&
            Lookup(r, "hasValidationErrors") == Bool(Lookup(fs, "status") == Num(422)) &&
            Lookup(r, "status") == Lookup(fs, "status") &&
            Lookup(r, "data").Obj? &&
            IsObjectLike(Lookup(Lookup(r, "data").fields, "errors")) &&
            (IsObjectLike(errors) ==> Lookup(Lookup(r, "data").fields, "errors") == errors) &&
            (!IsObjectLike(errors) ==> Lookup(Lookup(r, "data").fields, "errors") == Obj([]))
  {
  }

  /** A response whose `data` is missing makes the normaliser throw once the flag is set. */
  lemma MissingDataThrows(fs: Fields, message: string)
    requires Lookup(fs, "data") == Undefined
    ensures Normalized(Some(fs), message) == (WithValidationFlag(fs), true)
  {
  }

  /** Normalising an already normalised response changes nothing. */
  lemma NormalizeIdempotent(response: Option<Fields>, message: string)
    requires !Normalized(response, message).1
    ensures Normalized(Some(Normalized(response, message).0), message) == (Normalized(response, message).0, false)
  {
    var fs := match response case Some(fs) => fs case None => SynthesizedResponse(message);
    var flagged := WithValidationFlag(fs);
    var r := Normalized(response, message).0;
    if Lookup(flagged, "data").Obj? {
      ErrorsObjectSettled(flagged);
    } else {
      assert "status" != "hasValidationErrors";
      FlagSettled(flagged);
    }
  }

  /** A response whose flag is already set keeps it. */
  lemma FlagSettled(flagged: Fields)
    requires "hasValidationErrors" in KeysOf(flagged)
    requires Lookup(flagged, "hasValidationErrors") == Bool(Lookup(flagged, "status") == Num(422))
    ensures WithValidationFlag(flagged) == flagged
  {
    PutSameValue(flagged, "hasValidationErrors", Lookup(flagged, "hasValidationErrors"));
  }

  /** After the first pass the flag and the `errors` object are settled. */
  lemma ErrorsObjectSettled(flagged: Fields)
    requires exists fs :: flagged == WithValidationFlag(fs)
    requires Lookup(flagged, "data").Obj?
    ensures var r := WithErrorsObject(flagged).value;
            WithValidationFlag(r) == r && WithErrorsObject(r) == Some(r)
  {
    var fs :| flagged == WithValidationFlag(fs);
    var gs := Lookup(flagged, "data").fields;
    var errors := if IsObjectLike(Lookup(gs, "errors")) then Lookup(gs, "errors") else Obj([]);
    var gs2 := Put(gs, "errors", errors);
    var r := Put(flagged, "data", Obj(gs2));
    assert WithErrorsObject(flagged) == Some(r);
    assert "data" != "hasValidationErrors" && "data" != "status";
    assert Lookup(r, "status") == Lookup(fs, "status");
    assert Lookup(r, "hasValidationErrors") == Lookup(flagged, "hasValidationErrors");
    PutSameValue(r, "hasValidationErrors", Lookup(r, "hasValidationErrors"));
    PutSameValue(gs2, "errors", errors);
    PutSameValue(r, "data", Obj(gs2));
  }

  /** Assigning a key the value it already holds changes nothing. */
  lemma {:induction false} PutSameValue(fs: Fields, k: string, v: JsValue)
    requires k in KeysOf(fs) && Lookup(fs, k) == v
    ensures Put(fs, k, v) == fs
  {
    if fs[0].0 != k {
      PutSameValue(fs[1..], k, v);
    }
  }

  /** The second response interceptor's error handler: rewrites `error.response` in
      place and reports whether it threw. */
  method NormalizeError(error: ErrorObject) returns (threw: bool)
    modifies error
    ensures (error.response, threw) == (Some(Normalized(old(error.response), error.message).0), Normalized(old(error.response), error.message).1)
  {
    if error.response.None? {
      error.response := Some(SynthesizedResponse(error.message));
    }
    var fs := error.response.value;
    fs := Put(fs, "hasValidationErrors", Bool(Lookup(fs, "status") == Num(422)));
    error.response := Some(fs);
    match Lookup(fs, "data") {
      case Obj(gs) =>
        var errors := Lookup(gs, "errors");
        error.response := Some(Put(fs, "data", Obj(Put(gs, "errors", if IsObjectLike(errors) then errors else Obj([])))));
        threw := false;
      case Arr(_) =>
        threw := false;
      case Tagged(_) =>
        threw := false;
      case _ =>
        threw := true;
    }
  }

  /** How a request through the client settles for its caller. */
  datatype Settled = Fulfilled(value: JsValue) | Rejected(error: JsError)

  /** The rejection that leaves the second interceptor for an error it was handed. */
  function NormalizedRejection(e: JsError): JsError
  {
    var (r, threw) := Normalized(e.response, e.message);
    if threw then TypeError() else JsError(Some(r), e.message)
  }

  /** A request through the client, whole: the request interceptor, the transport's
      result `sent`, then both response interceptors. */
  method Send(config: RequestConfig, env: Env, auth: AuthStore.AuthStore, posts: PostStore.PostStore,
              storage: BrowserStorage.LocalStorage, sent: Result<JsValue>, refresh: Result<JsValue>, retry: Result<JsValue>)
    returns (settled: Settled)
    requires storage.Valid()
    modifies config, auth, posts, storage
    ensures config.headers == RequestHeaders(old(config.headers), config.url, config.extra, old(auth.State()), env)
    ensures sent.Ok? ==> settled == Fulfilled(sent.value) && auth.State() == old(auth.State())
    ensures sent.Ok? ==>
              posts.State() == old(posts.State()) && storage.keyList == old(storage.keyList) && storage.items == old(storage.items)
    ensures sent.Err? ==>
              var s := old(auth.State());
              var e := sent.error;
              if HandlerSignsOut(env, s, config.url, e.response, refresh, retry) then
                posts.State() == PostStore.DefaultPostState() &&
                storage.keyList == BrowserStorage.SweepFrom(old(storage.keyList), BrowserStorage.ExceptList(AuthStore.KeptOnSignOut), 0)
              else
                posts.State() == old(posts.State()) && storage.keyList == old(storage.keyList) && storage.items == old(storage.items)
    ensures sent.Err? ==>
              var s := old(auth.State());
              var e := sent.error;
              auth.State() == HandlerAuthState(env, s, config.url, e.response, refresh, retry) &&
              settled == SettledBy(HandlerResult(env, s, config.url, e.response, refresh, retry), e)
    ensures forall k :: k in storage.items ==> k in old(storage.items) && storage.items[k] == old(storage.items)[k]
    ensures storage.Valid()
  {
    InterceptRequest(config, auth.State(), env);
    match sent {
      case Ok(value) =>
        settled := Fulfilled(value);
      case Err(e) =>
        var error := new ErrorObject(e.response, e.message, config.url);
        var outcome, _ := HandleResponseError(error, env, auth, posts, storage, refresh, retry);
        settled := SettleOutcome(outcome, e, config.url);
    }
  }

  /** How the promise settles once the first interceptor has its outcome: a rejection
      passes through the normaliser. */
  function SettledBy(outcome: HandlerOutcome, e: JsError): Settled
  {
    match outcome
    case Retried(v) => Fulfilled(v)
    case RejectOriginal => Rejected(NormalizedRejection(e))
    case RejectWith(t) => Rejected(NormalizedRejection(t))
  }

  /** The second interceptor applied to the first one's outcome for the error `e`. */
  method SettleOutcome(outcome: HandlerOutcome, e: JsError, url: string) returns (settled: Settled)
    ensures settled == SettledBy(outcome, e)
  {
    match outcome {
      case Retried(value) =>
        settled := Fulfilled(value);
      case RejectOriginal =>
        var error := new ErrorObject(e.response, e.message, url);
        var threw := NormalizeError(error);
        settled := Rejected(if threw then TypeError() else error.Value());
      case RejectWith(t) =>
        var thrown := new ErrorObject(t.response, t.message, url);
        var threw := NormalizeError(thrown);
        settled := Rejected(if threw then TypeError() else thrown.Value());
    }
  }
}

=== FILE: auth_store.dfy ===
/** The session store: the signed-in user, the two tokens, the progress flags and the
    two displayable errors, with the actions that sign in, sign out and reload the
    user. Each awaited service call is an input: its payload, or the error it was
    rejected with. */
module AuthStore {
  import opened Js
  import BrowserStorage

  /** A snapshot of the store's state. */
  datatype AuthState = AuthState(
    user: JsValue,
    accessToken: JsValue,
    refreshToken: JsValue,
    isAuthenticating: bool,
    isRefreshingToken: bool,
    isFetchingAuthUser: bool,
    isLoggingOut: bool,
    loginError: JsValue,
    fetchUserError: JsValue)

  /** The `isAuthenticated` getter: a user and an access token are both present. */
  predicate Authenticated(s: AuthState)
    ensures Authenticated(s) ==> !Nullish(s.user) && !Nullish(s.accessToken)
  {
    Truthy(s.user) && Truthy(s.accessToken)
  }

  /** `getDefaultState()`: signed out, nothing in progress, no errors. */
  function DefaultState(): (s: AuthState)
    ensures !Authenticated(s)
    ensures !s.isAuthenticating && !s.isRefreshingToken && !s.isFetchingAuthUser && !s.isLoggingOut
    ensures s.loginError == Null && s.fetchUserError == Null
  {
    AuthState(Null, Null, Null, false, false, false, false, Null, Null)
  }

  /** `clearErrors()` */
  function ClearedErrors(s: AuthState): AuthState
  {
    s.(loginError := Null, fetchUserError := Null)
  }

  /** The state paths the persistence plugin writes to storage. */
  const PersistedPaths: seq<string> := ["user", "accessToken", "refreshToken"]

  /** The persisted part of the state. */
  datatype Persisted = Persisted(user: JsValue, accessToken: JsValue, refreshToken: JsValue)

  function PersistedView(s: AuthState): Persisted
  {
    Persisted(s.user, s.accessToken, s.refreshToken)
  }

  /** The state after a page reload: the default state with the persisted paths restored. */
  function Rehydrate(p: Persisted): AuthState
  {
    DefaultState().(user := p.user, accessToken := p.accessToken, refreshToken := p.refreshToken)
  }

  /** A reload keeps the session (signed in or not) and nothing else: flags and errors
      start from their defaults. */
  lemma ReloadKeepsSession(s: AuthState)
    ensures Authenticated(Rehydrate(PersistedView(s))) <==> Authenticated(s)
    ensures Rehydrate(PersistedView(s)) == DefaultState().(user := s.user, accessToken := s.accessToken, refreshToken := s.refreshToken)
    ensures !Rehydrate(PersistedView(s)).isAuthenticating && Rehydrate(PersistedView(s)).loginError == Null
  {
  }

  /** Clearing the errors changes nothing that is persisted, and nothing but the two errors. */
  lemma ClearErrorsKeepsRest(s: AuthState)
    ensures PersistedView(ClearedErrors(s)) == PersistedView(s)
    ensures Authenticated(ClearedErrors(s)) == Authenticated(s)
    ensures ClearedErrors(s).loginError == Null && ClearedErrors(s).fetchUserError == Null
    ensures ClearedErrors(s).(loginError := s.loginError, fetchUserError := s.fetchUserError) == s
  {
  }

  /** The guard of `setAuthenticated(data)`: `None` where reading `data.user.id` throws
      (`data` present without a `user`), otherwise whether the user has a truthy id
      and the access token a non-zero length. */
  function AuthCheck(data: JsValue): (r: Option<bool>)
    ensures r.None? <==> !Nullish(data) && Nullish(Prop(data, "user"))
    ensures r == Some(true) ==>
              !Nullish(data) && Prop(data, "user").Obj? && Truthy(Prop(Prop(data, "user"), "id")) &&
              Truthy(Prop(data, "access_token"))
  {
    if Nullish(data) then Some(false)
    else
      var user := Prop(data, "user");
      if Nullish(user) then None
      else Some(Truthy(Prop(user, "id")) && Truthy(OptProp(Prop(data, "access_token"), "length")))
  }

  /** The own entries `{...user}` copies; the guard lets only a plain object through
      (no other value has an `id`). */
  function UserEntries(user: JsValue): Fields
  {
    match user
    case Obj(fs) => fs
    case _ => []
  }

  /** The state `setAuthenticated(data)` leaves, or the error it rejects with. */
  function SetAuthenticatedResult(s: AuthState, data: JsValue): (r: Result<AuthState>)
    ensures r.Err? <==> AuthCheck(data).None?
    ensures r.Err? ==> r.error == TypeError()
    ensures r.Ok? ==> r.value.(user := s.user, accessToken := s.accessToken, refreshToken := s.refreshToken) == s
  {
    match AuthCheck(data)
    case None => Err(TypeError())
    case Some(false) => Ok(s)
    case Some(true) =>
      Ok(s.(accessToken := Prop(data, "access_token"),
            refreshToken := Prop(data, "refresh_token"),
            user := Obj(Put(UserEntries(Prop(data, "user")), "profile_picture_base64", Null))))
  }

  /** Accepted data signs the user in: both tokens come from the payload, the user is
      the payload's user with `profile_picture_base64` set to null, and the flags and
      errors are untouched. */
  lemma AcceptedDataAuthenticates(s: AuthState, data: JsValue)
    requires AuthCheck(data) == Some(true)
    ensures SetAuthenticatedResult(s, data).Ok?
    ensures var t := SetAuthenticatedResult(s, data).value;
            Authenticated(t) &&
            t.accessToken == Prop(data, "access_token") &&
            t.refreshToken == Prop(data, "refresh_token") &&
            t.user.Obj? && Prop(data, "user").Obj? &&
            Lookup(t.user.fields, "profile_picture_base64") == Null &&
            (forall k :: k != "profile_picture_base64" ==> Lookup(t.user.fields, k) == Lookup(Prop(data, "user").fields, k)) &&
            t.(user := s.user, accessToken := s.accessToken, refreshToken := s.refreshToken) == s
  {
    var user := Prop(data, "user");
    assert user.Obj? by {
      assert Truthy(Prop(user, "id"));
    }
    var token := Prop(data, "access_token");
    assert Truthy(token) by {
      assert Truthy(OptProp(token, "length"));
    }
  }

  /** Data that fails the guard without throwing (no payload, a falsy id, an empty or
      missing access token) leaves the state as it was. */
  lemma RejectedDataKeepsState(s: AuthState, data: JsValue)
    requires AuthCheck(data) == Some(false)
    ensures SetAuthenticatedResult(s, data) == Ok(s)
  {
  }

  /** A payload without a `user` makes the guard itself throw. */
  lemma MissingUserThrows(s: AuthState, data: JsValue)
    requires !Nullish(data) && Nullish(Prop(data, "user"))
    ensures SetAuthenticatedResult(s, data) == Err(TypeError())
  {
  }

  /** The whitespace class `\s` of JavaScript regular expressions. */
  predicate IsRegexSpace(c: char)
  {
    c == ' ' || c == '\t' || c == '\n' || c == '\r' || c == '\U{B}' || c == '\U{C}' ||
    c == '\U{A0}' || c == '\U{1680}' || ('\U{2000}' <= c <= '\U{200A}') ||
    c == '\U{2028}' || c == '\U{2029}' || c == '\U{202F}' || c == '\U{205F}' ||
    c == '\U{3000}' || c == '\U{FEFF}'
  }

  /** `/^\/\S/`: a slash followed by a non-space character. */
  predicate LooksLikePath(t: string)
  {
    |t| >= 2 && t[0] == '/' && !IsRegexSpace(t[1])
  }

  /** `/^\/(login)|(signin)|(logout)|(signout)/`: by alternation precedence only the
      first alternative is anchored, so it is a leading `/login` or one of the other
      three words anywhere. */
  predicate MentionsAuthPage(t: string)
  {
    StartsWith(t, "/login") || Contains(t, "signin") || Contains(t, "logout") || Contains(t, "signout")
  }

  /** The path `loginUser` navigates to: the `continue` query value when its text
      passes both tests, `'/'` otherwise. */
  function ContinueTo(cont: JsValue): (p: JsValue)
    ensures p == Str("/") || p == cont
    ensures p == cont && cont != Str("/") ==> LooksLikePath(ToJsString(cont)) && !MentionsAuthPage(ToJsString(cont))
    ensures LooksLikePath(ToJsString(cont)) && !MentionsAuthPage(ToJsString(cont)) ==> p == cont
  {
    var t := ToJsString(cont);
    if LooksLikePath(t) && !MentionsAuthPage(t) then cont else Str("/")
  }

  lemma {:induction false} ContainsInfix(a: string, t: string, b: string)
    ensures Contains(a + t + b, t)
    decreases |a|
  {
    if a == [] {
      assert (a + t + b)[..|t|] == t;
    } else {
      ContainsInfix(a[1..], t, b);
      assert (a + t + b)[1..] == a[1..] + t + b;
    }
  }

  lemma {:induction false} ContainsNeedsRoom(s: string, t: string)
    requires Contains(s, t)
    ensures |t| <= |s|
    decreases |s|
  {
    if !StartsWith(s, t) {
      ContainsNeedsRoom(s[1..], t);
    }
  }

  /** Without a `continue` query the user lands on `/`. */
  lemma ContinueAbsent()
    ensures ContinueTo(Undefined) == Str("/")
  {
    assert ToJsString(Undefined)[0] == 'u';
  }

  /** Any path beginning with `/login` is refused. */
  lemma ContinueRefusesLogin(rest: string)
    ensures ContinueTo(Str("/login" + rest)) == Str("/")
  {
    assert ("/login" + rest)[..6] == "/login";
  }

  /** `signin`, `logout` and `signout` anywhere in the text are refused, not just at
      the start. */
  lemma ContinueRefusesAuthWordsAnywhere(a: string, b: string)
    ensures ContinueTo(Str(a + "signin" + b)) == Str("/")
    ensures ContinueTo(Str(a + "logout" + b)) == Str("/")
    ensures ContinueTo(Str(a + "signout" + b)) == Str("/")
  {
    ContainsInfix(a, "signin", b);
    ContainsInfix(a, "logout", b);
    ContainsInfix(a, "signout", b);
  }

  /** A slash followed by a space is not a path. */
  lemma ContinueRefusesSpace(rest: string)
    ensures ContinueTo(Str("/ " + rest)) == Str("/")
  {
    assert ("/ " + rest)[1] == ' ';
  }

  /** A short ordinary path is followed. */
  lemma ContinueFollowsProfile(id: char)
    requires !IsRegexSpace(id)
    ensures ContinueTo(Str(['/', 'u', '/', id])) == Str(['/', 'u', '/', id])
  {
    var t := ['/', 'u', '/', id];
    assert !StartsWith(t, "/login");
    if Contains(t, "signin") { ContainsNeedsRoom(t, "signin"); }
    if Contains(t, "logout") { ContainsNeedsRoom(t, "logout"); }
    if Contains(t, "signout") { ContainsNeedsRoom(t, "signout"); }
  }

  /** `loginUser` up to the awaited call: errors cleared, `isAuthenticating` set. */
  function LoginStarted(s: AuthState): AuthState
  {
    ClearedErrors(s).(isAuthenticating := true)
  }

  /** `loginUser` from the awaited call on: the state it leaves and the path it
      navigates to, if it gets that far. */
  function LoginFinished(s: AuthState, response: Result<JsValue>, cont: JsValue): (AuthState, Option<JsValue>)
  {
    var settled :=
      match response
      case Err(e) => Err(e)
      case Ok(data) => SetAuthenticatedResult(s, data);
    match settled
    case Err(e) => (s.(loginError := ResponseOrMessage(e), isAuthenticating := false), None)
    case Ok(t) => (t.(isAuthenticating := false), Some(ContinueTo(cont)))
  }

  /** Every way out of `loginUser` clears `isAuthenticating` and leaves `fetchUserError`
      null. A rejected call records `error.response ?? error.message` and touches no
      session field; accepted data signs in and navigates to the continue path; a
      payload whose guard throws records the TypeError's message. */
  lemma LoginOutcome(s: AuthState, response: Result<JsValue>, cont: JsValue)
    ensures var (t, nav) := LoginFinished(LoginStarted(s), response, cont);
            !t.isAuthenticating && t.fetchUserError == Null &&
            (response.Err? ==> t.loginError == ResponseOrMessage(response.error) && nav == None &&
                               PersistedView(t) == PersistedView(s)) &&
            (response.Ok? && AuthCheck(response.value) == Some(true) ==>
                               Authenticated(t) && t.loginError == Null && nav == Some(ContinueTo(cont))) &&
            (response.Ok? && AuthCheck(response.value) == Some(false) ==>
                               PersistedView(t) == PersistedView(s) && t.loginError == Null && nav == Some(ContinueTo(cont))) &&
            (response.Ok? && AuthCheck(response.value) == None ==>
                               t.loginError == Str(TypeErrorMessage) && nav == None && PersistedView(t) == PersistedView(s))
  {
    match response {
      case Err(_) =>
      case Ok(data) =>
        match AuthCheck(data) {
          case Some(true) => AcceptedDataAuthenticates(LoginStarted(s), data);
          case Some(false) => RejectedDataKeepsState(LoginStarted(s), data);
          case None => MissingUserThrows(LoginStarted(s), data);
        }
    }
  }

  /** `getAuthUser` up to the awaited call: errors cleared, `isFetchingAuthUser` set. */
  function FetchUserStarted(s: AuthState): AuthState
  {
    ClearedErrors(s).(isFetchingAuthUser := true)
  }

  /** `getAuthUser` from the awaited call on. */
  function FetchUserFinished(s: AuthState, response: Result<JsValue>): AuthState
  {
    match response
    case Err(e) => s.(fetchUserError := ResponseOrMessage(e), isFetchingAuthUser := false)
    case Ok(data) => (if Truthy(OptProp(data, "id")) then s.(user := data) else s).(isFetchingAuthUser := false)
  }

  /** `getAuthUser` replaces the user exactly when the payload has a truthy `id`,
      records the error of a rejected call, and always ends with the flag cleared. */
  lemma FetchUserOutcome(s: AuthState, response: Result<JsValue>)
    ensures var t := FetchUserFinished(FetchUserStarted(s), response);
            !t.isFetchingAuthUser && t.loginError == Null &&
            t.accessToken == s.accessToken && t.refreshToken == s.refreshToken &&
            (t.user == s.user || (response.Ok? && t.user == response.value)) &&
            (response.Ok? && Truthy(OptProp(response.value, "id")) ==> t.user == response.value && t.fetchUserError == Null) &&
            (response.Ok? && !Truthy(OptProp(response.value, "id")) ==> t.user == s.user && t.fetchUserError == Null) &&
            (response.Err? ==> t.user == s.user && t.fetchUserError == ResponseOrMessage(response.error))
  {
  }

  /** Signing out with the revoke request sends the token held before the reset. */
  function RevokeRequestToken(revokeToken: bool, accessToken: JsValue): (r: Option<JsValue>)
    ensures r.Some? <==> revokeToken
    ensures revokeToken ==> r == Some(accessToken)
  {
    if revokeToken then Some(accessToken) else None
  }

  /** The allow-list signing out hands to `clearAllExcept`. */
  const KeptOnSignOut: JsValue := Arr([Str("themeMode")])

  /** Signing out never clears the stored theme mode. */
  lemma SignOutKeepsThemeMode(keys: seq<string>)
    requires "themeMode" in keys
    ensures "themeMode" in BrowserStorage.SweepFrom(keys, BrowserStorage.ExceptList(KeptOnSignOut), 0)
  {
    BrowserStorage.SweepKeepsAllowed(keys, BrowserStorage.ExceptList(KeptOnSignOut), 0, "themeMode");
  }

  /** The `auth` store. */
  class AuthStore {
    var user: JsValue
    var accessToken: JsValue
    var refreshToken: JsValue
    var isAuthenticating: bool
    var isRefreshingToken: bool
    var isFetchingAuthUser: bool
    var isLoggingOut: bool
    var loginError: JsValue
    var fetchUserError: JsValue

    function State(): AuthState
      reads this
    {
      AuthState(user, accessToken, refreshToken, isAuthenticating, isRefreshingToken,
                isFetchingAuthUser, isLoggingOut, loginError, fetchUserError)
    }

    constructor ()
      ensures State() == DefaultState()
    {
      user, accessToken, refreshToken := Null, Null, Null;
      isAuthenticating, isRefreshingToken, isFetchingAuthUser, isLoggingOut := false, false, false, false;
      loginError, fetchUserError := Null, Null;
    }

    /** `isAuthenticated` */
    predicate IsAuthenticated()
      reads this
    {
      Authenticated(State())
    }

    /** `$reset()` */
    method Reset()
      modifies this
      ensures State() == DefaultState()
    {
      user, accessToken, refreshToken := Null, Null, Null;
      isAuthenticating, isRefreshingToken, isFetchingAuthUser, isLoggingOut := false, false, false, false;
      loginError, fetchUserError := Null, Null;
    }

    /** `clearErrors()` */
    method ClearErrors()
      modifies this
      ensures State() == ClearedErrors(old(State()))
    {
      loginError := Null;
      fetchUserError := Null;
    }

    /** `setAuthenticated(data)`; `thrown` is the error the returned promise rejects with. */
    method SetAuthenticated(data: JsValue) returns (thrown: Option<JsError>)
      modifies this
      ensures match SetAuthenticatedResult(old(State()), data)
              case Ok(t) => State() == t && thrown == None
              case Err(e) => State() == old(State()) && thrown == Some(e)
    {
      if Nullish(data) {
        return None;
      }
      var u := Prop(data, "user");
      if Nullish(u) {
        return Some(TypeError());
      }
      if Truthy(Prop(u, "id")) && Truthy(OptProp(Prop(data, "access_token"), "length")) {
        accessToken := Prop(data, "access_token");
        refreshToken := Prop(data, "refresh_token");
        user := Obj(Put(UserEntries(u), "profile_picture_base64", Null));
      }
      return None;
    }

    /** `setUnauthenticated(revokeToken)`: `revoked` is the token the fire-and-forget
        revoke request carries, whose failure is ignored; the promise always resolves
        to true. */
    method SetUnauthenticated(revokeToken: bool, storage: BrowserStorage.LocalStorage)
      returns (resolved: bool, revoked: Option<JsValue>)
      requires storage.Valid()
      modifies this, storage
      ensures resolved
      ensures revoked == RevokeRequestToken(revokeToken, old(accessToken))
      ensures State() == DefaultState()
      ensures storage.Valid()
      ensures storage.keyList == BrowserStorage.SweepFrom(old(storage.keyList), BrowserStorage.ExceptList(KeptOnSignOut), 0)
      ensures forall k :: k in storage.items ==> k in old(storage.items) && storage.items[k] == old(storage.items)[k]
    {
      revoked := None;
      if revokeToken {
        revoked := Some(accessToken);
      }
      BrowserStorage.ClearAllExcept(storage, KeptOnSignOut);
      Reset();
      resolved := true;
    }

    /** `loginUser(credentials)` up to the awaited login call. */
    method LoginBegin()
      modifies this
      ensures State() == LoginStarted(old(State()))
    {
      ClearErrors();
      isAuthenticating := true;
    }

    /** `loginUser(credentials)` once the login call has settled with `response`;
        `cont` is the current route's `continue` query value. */
    method LoginComplete(response: Result<JsValue>, cont: JsValue) returns (navigateTo: Option<JsValue>)
      modifies this
      ensures (State(), navigateTo) == LoginFinished(old(State()), response, cont)
    {
      navigateTo := None;
      var failure: Option<JsError> := None;
      match response {
        case Err(e) =>
          failure := Some(e);
        case Ok(data) =>
          failure := SetAuthenticated(data);
      }
      match failure {
        case Some(e) =>
          loginError := ResponseOrMessage(e);
        case None =>
          var continueToPath := Str("/");
          var t := ToJsString(cont);
          if LooksLikePath(t) && !MentionsAuthPage(t) {
            continueToPath := cont;
          }
          navigateTo := Some(continueToPath);
      }
      isAuthenticating := false;
    }

    /** `loginUser(credentials)`, whole. */
    method LoginUser(response: Result<JsValue>, cont: JsValue) returns (navigateTo: Option<JsValue>)
      modifies this
      ensures (State(), navigateTo) == LoginFinished(LoginStarted(old(State())), response, cont)
    {
      LoginBegin();
      navigateTo := LoginComplete(response, cont);
    }

    /** `getAuthUser()` up to the awaited call. */
    method GetAuthUserBegin()
      modifies this
      ensures State() == FetchUserStarted(old(State()))
    {
      ClearErrors();
      isFetchingAuthUser := true;
    }

    /** `getAuthUser()` once the call has settled with `response`. */
    method GetAuthUserComplete(response: Result<JsValue>)
      modifies this
      ensures State() == FetchUserFinished(old(State()), response)
    {
      match response {
        case Err(e) =>
          fetchUserError := ResponseOrMessage(e);
        case Ok(data) =>
          if Truthy(OptProp(data, "id")) {
            user := data;
          }
      }
      isFetchingAuthUser := false;
    }

    /** `getAuthUser()`, whole. */
    method GetAuthUser(response: Result<JsValue>)
      modifies this
      ensures State() == FetchUserFinished(FetchUserStarted(old(State())), response)
    {
      GetAuthUserBegin();
      GetAuthUserComplete(response);
    }
  }
}

=== FILE: browser_storage.dfy ===
/** The key-value storage wrapper: `localStorage` as an object holding string values
    under keys numbered in insertion order, and the helper operations the app uses on
    it (JSON values, merge on write, clearing with an allow-list). */
module BrowserStorage {
  import opened Js

  predicate Distinct(s: seq<string>)
  {
    forall i, j :: 0 <= i < j < |s| ==> s[i] != s[j]
  }

  /** The sequence without its `i`-th element. */
  function RemoveAt(s: seq<string>, i: nat): (r: seq<string>)
    requires i < |s|
    ensures |r| == |s| - 1
    ensures forall j :: 0 <= j < i ==> r[j] == s[j]
    ensures forall j :: i <= j < |r| ==> r[j] == s[j + 1]
  {
    s[..i] + s[i + 1..]
  }

  /** The sequence without the element `k`. */
  function RemoveKey(s: seq<string>, k: string): (r: seq<string>)
    ensures forall x :: x in r <==> x in s && x != k
  {
    if s == [] then []
    else if s[0] == k then RemoveKey(s[1..], k)
    else [s[0]] + RemoveKey(s[1..], k)
  }

  lemma {:induction false} RemoveKeyAt(s: seq<string>, i: nat)
    requires Distinct(s) && i < |s|
    ensures RemoveKey(s, s[i]) == RemoveAt(s, i)
  {
    if i == 0 {
      RemoveKeyAbsent(s[1..], s[0]);
    } else {
      assert Distinct(s[1..]) by {
        forall a, b | 0 <= a < b < |s| - 1 ensures s[1..][a] != s[1..][b] {
          assert s[a + 1] != s[b + 1];
        }
      }
      RemoveKeyAt(s[1..], i - 1);
      assert s[1..][i - 1] == s[i];
      assert [s[0]] + RemoveAt(s[1..], i - 1) == RemoveAt(s, i);
    }
  }

  lemma {:induction false} RemoveKeyAbsent(s: seq<string>, k: string)
    requires k !in s
    ensures RemoveKey(s, k) == s
  {
    if s != [] {
      RemoveKeyAbsent(s[1..], k);
    }
  }

  /** The Web Storage object (`localStorage`). */
  class LocalStorage {
    /** the keys, in the index order that `key(i)` reports */
    var keyList: seq<string>
    var items: map<string, string>

    ghost predicate Valid()
      reads this
    {
      Distinct(keyList) && forall k :: k in items <==> k in keyList
    }

    constructor ()
      ensures Valid() && keyList == [] && items == map[]
    {
      keyList := [];
      items := map[];
    }

    /** `storage.length` */
    function Length(): nat
      reads this
    {
      |keyList|
    }

    /** `storage.key(i)`: null outside the index range */
    function Key(i: int): Option<string>
      reads this
    {
      if 0 <= i < |keyList| then Some(keyList[i]) else None
    }

    /** `storage.getItem(k)`: null for a missing key */
    function GetItem(k: string): Option<string>
      reads this
    {
      if k in items then Some(items[k]) else None
    }

    /** `storage.setItem(k, v)`: a new key takes the next index. */
    method SetItem(k: string, v: string)
      requires Valid()
      modifies this
      ensures Valid()
      ensures items == old(items)[k := v]
      ensures keyList == if k in old(items) then old(keyList) else old(keyList) + [k]
    {
      if k !in items {
        keyList := keyList + [k];
      }
      items := items[k := v];
    }

    /** `storage.removeItem(k)`: the keys after it move down one index. */
    method RemoveItem(k: string)
      requires Valid()
      modifies this
      ensures Valid()
      ensures items == old(items) - {k}
      ensures keyList == RemoveKey(old(keyList), k)
    {
      RemoveKeyDistinct(keyList, k);
      keyList := RemoveKey(keyList, k);
      items := items - {k};
    }

    /** `storage.clear()` */
    method Clear()
      requires Valid()
      modifies this
      ensures Valid() && keyList == [] && items == map[]
    {
      keyList := [];
      items := map[];
    }
  }

  lemma {:induction false} RemoveKeyDistinct(s: seq<string>, k: string)
    requires Distinct(s)
    ensures Distinct(RemoveKey(s, k))
  {
    if s != [] {
      assert Distinct(s[1..]) by {
        forall a, b | 0 <= a < b < |s| - 1 ensures s[1..][a] != s[1..][b] {
          assert s[a + 1] != s[b + 1];
        }
      }
      RemoveKeyDistinct(s[1..], k);
      var rest := RemoveKey(s[1..], k);
      if s[0] != k {
        assert s[0] !in rest by {
          assert s[0] !in s[1..];
        }
        var r := [s[0]] + rest;
        forall a, b | 0 <= a < b < |r| ensures r[a] != r[b] {
          if a == 0 {
            assert r[b] == rest[b - 1];
          } else {
            assert r[a] == rest[a - 1] && r[b] == rest[b - 1];
          }
        }
      }
    }
  }

  /** The JSON encoder and decoder the wrapper relies on (`JSON.stringify`, and
      `JSON.parse`, which answers `None` where it throws). */
  datatype Codec = Codec(encode: JsValue -> string, decode: string -> Option<JsValue>)

  /** The codec reads back every value it writes. */
  predicate RoundTrips(codec: Codec, v: JsValue)
  {
    codec.decode(codec.encode(v)) == Some(v)
  }

  /** What `getItem` yields, as a JavaScript value. */
  function Raw(items: map<string, string>, key: string): JsValue
  {
    if key in items then Str(items[key]) else Null
  }

  /** `JSON.parse(value)` inside `try`: a missing item (null) parses to null, text the
      decoder rejects stays as it was. */
  function ParseOrKeep(codec: Codec, raw: JsValue): JsValue
  {
    match raw
    case Str(s) => (match codec.decode(s) case Some(v) => v case None => raw)
    case _ => Null
  }

  /** `get(key, defaultValue, parseToJson)` over the stored items. */
  function GetIn(items: map<string, string>, codec: Codec, key: string, defaultValue: JsValue, parseToJson: bool): (r: JsValue)
    ensures r == Null ==> defaultValue == Null
    ensures key in items && !parseToJson ==> r == Str(items[key])
    ensures key in items && parseToJson && codec.decode(items[key]).Some? && codec.decode(items[key]).value != Null ==>
              r == codec.decode(items[key]).value
  {
    var raw := Raw(items, key);
    var value := if parseToJson then ParseOrKeep(codec, raw) else raw;
    if value != Null then value else defaultValue
  }

  /** `get(key, defaultValue, parseToJson)` */
  function Get(storage: LocalStorage, codec: Codec, key: string, defaultValue: JsValue, parseToJson: bool): (r: JsValue)
    reads storage
    ensures key !in storage.items ==> r == defaultValue
    ensures key in storage.items && !parseToJson ==> r == Str(storage.items[key])
  {
    GetIn(storage.items, codec, key, defaultValue, parseToJson)
  }

  /** `getJSON(key, defaultValue)` */
  function GetJSON(storage: LocalStorage, codec: Codec, key: string, defaultValue: JsValue): (r: JsValue)
    reads storage
    ensures r == Null ==> defaultValue == Null
    ensures key in storage.items && codec.decode(storage.items[key]).None? ==> r == Str(storage.items[key])
  {
    Get(storage, codec, key, defaultValue, true)
  }

  /** A missing key reads as the default value, parsed or not. */
  lemma GetMissing(items: map<string, string>, codec: Codec, key: string, defaultValue: JsValue, parseToJson: bool)
    requires key !in items
    ensures GetIn(items, codec, key, defaultValue, parseToJson) == defaultValue
  {
  }

  /** Text the decoder rejects is returned as stored. */
  lemma GetKeepsUnparsable(items: map<string, string>, codec: Codec, key: string, defaultValue: JsValue)
    requires key in items && codec.decode(items[key]).None?
    ensures GetIn(items, codec, key, defaultValue, true) == Str(items[key])
  {
  }

  /** The entries `_.merge` copies from a source value: an object's own entries, an
      array's elements under their index keys, nothing from another built-in object. */
  function SourceEntries(source: JsValue): Fields
  {
    match source
    case Obj(gs) => gs
    case Arr(items) => IndexEntries(items, 0)
    case _ => []
  }

  function IndexEntries(items: seq<JsValue>, from: nat): Fields
    decreases |items| - from
  {
    if from >= |items| then [] else [(NatToString(from), items[from])] + IndexEntries(items, from + 1)
  }

  /** Assigns every entry of `gs` onto `fs`, left to right. */
  function PutAll(fs: Fields, gs: Fields): (r: Fields)
    ensures KeysOf(r) == KeysOf(fs) + KeysOf(gs)
    decreases |gs|
  {
    if gs == [] then fs else PutAll(Put(fs, gs[0].0, gs[0].1), gs[1..])
  }

  /** `_.merge(value, currentValue)`, one level deep: the current entries are written
      over the new value's, so existing fields win. A built-in target keeps its own
      serialisation and is left as it is. */
  function ShallowMerge(value: JsValue, current: JsValue): (r: JsValue)
    ensures !value.Obj? ==> r == value
    ensures value.Obj? ==> r.Obj? && KeysOf(value.fields) <= KeysOf(r.fields)
    ensures value.Obj? && current.Obj? ==> KeysOf(r.fields) == KeysOf(value.fields) + KeysOf(current.fields)
  {
    match value
    case Obj(fs) => Obj(PutAll(fs, SourceEntries(current)))
    case _ => value
  }

  lemma {:induction false} PutAllLookup(fs: Fields, gs: Fields, k: string)
    requires UniqueKeys(gs)
    ensures Lookup(PutAll(fs, gs), k) == if k in KeysOf(gs) then Lookup(gs, k) else Lookup(fs, k)
    decreases |gs|
  {
    if gs != [] {
      assert UniqueKeys(gs[1..]) by {
        forall a, b | 0 <= a < b < |gs| - 1 ensures gs[1..][a].0 != gs[1..][b].0 {
          assert gs[a + 1].0 != gs[b + 1].0;
        }
      }
      PutAllLookup(Put(fs, gs[0].0, gs[0].1), gs[1..], k);
      if k == gs[0].0 {
        assert k !in KeysOf(gs[1..]) by {
          KeysOfOnlyEach(gs[1..]);
          forall j | 0 <= j < |gs| - 1 ensures gs[1..][j].0 != gs[0].0 {
            assert gs[j + 1].0 != gs[0].0;
          }
        }
      }
    }
  }

  /** On a merge, each field the stored object has keeps its stored value; other
      fields come from the new value. */
  lemma MergeKeepsExisting(fs: Fields, gs: Fields, k: string)
    requires UniqueKeys(gs)
    ensures var merged := ShallowMerge(Obj(fs), Obj(gs));
            merged.Obj? &&
            (k in KeysOf(gs) ==> Lookup(merged.fields, k) == Lookup(gs, k)) &&
            (k !in KeysOf(gs) ==> Lookup(merged.fields, k) == Lookup(fs, k))
  {
    PutAllLookup(fs, gs, k);
  }

  /** The text `set(key, value, merge)` writes: objects and arrays as JSON (a plain
      object first merged with the stored object when asked to), anything else as
      its string form. */
  function StoredText(items: map<string, string>, codec: Codec, key: string, value: JsValue, merge: bool): (r: string)
    ensures value.Str? ==> r == value.s
    ensures value.Arr? || (value.Obj? && !merge) ==> r == codec.encode(value)
    ensures value.Obj? && merge && key !in items ==> r == codec.encode(value)
  {
    if value != Null && IsTypeofObject(value) then
      if !value.Arr? then
        var current := GetIn(items, codec, key, Null, true);
        if merge && key in items && IsObjectLike(current) then codec.encode(ShallowMerge(value, current))
        else codec.encode(value)
      else codec.encode(value)
    else ToJsString(value)
  }

  /** `set(key, obj, true)` over a stored object writes the merge of the two, in which
      each field the stored object has keeps its stored value and every other field
      comes from the new value. */
  lemma SetMergesStoredObject(items: map<string, string>, codec: Codec, key: string, fs: Fields, gs: Fields, k: string)
    requires key in items && codec.decode(items[key]) == Some(Obj(gs)) && UniqueKeys(gs)
    ensures var merged := ShallowMerge(Obj(fs), Obj(gs));
            StoredText(items, codec, key, Obj(fs), true) == codec.encode(merged) &&
            merged.Obj? &&
            (k in KeysOf(gs) ==> Lookup(merged.fields, k) == Lookup(gs, k)) &&
            (k !in KeysOf(gs) ==> Lookup(merged.fields, k) == Lookup(fs, k))
  {
    MergeKeepsExisting(fs, gs, k);
  }

  /** A string written with `set` is read back unchanged by `get`. */
  lemma SetThenGetString(items: map<string, string>, codec: Codec, key: string, s: string, merge: bool, d: JsValue)
    ensures GetIn(items[key := StoredText(items, codec, key, Str(s), merge)], codec, key, d, false) == Str(s)
  {
  }

  /** A non-object value is stored as its string form: `set(k, null)` stores the text
      `null`, which `get` returns as that text rather than as the default. */
  lemma SetNullStoresText(items: map<string, string>, codec: Codec, key: string, merge: bool, d: JsValue)
    ensures StoredText(items, codec, key, Null, merge) == "null"
    ensures GetIn(items[key := "null"], codec, key, d, false) == Str("null")
  {
  }

  /** An object or array written without merging is read back by `getJSON` whenever
      the codec round-trips it. */
  lemma SetThenGetJSON(items: map<string, string>, codec: Codec, key: string, value: JsValue, d: JsValue)
    requires IsObjectLike(value) && RoundTrips(codec, value)
    ensures GetIn(items[key := StoredText(items, codec, key, value, false)], codec, key, d, true) == value
  {
  }

  /** `set(key, value, merge)` */
  method Set(storage: LocalStorage, codec: Codec, key: string, value: JsValue, merge: bool)
    requires storage.Valid()
    modifies storage
    ensures storage.Valid()
    ensures storage.items == old(storage.items)[key := StoredText(old(storage.items), codec, key, value, merge)]
    ensures storage.keyList == if key in old(storage.items) then old(storage.keyList) else old(storage.keyList) + [key]
  {
    var v := value;
    if v != Null && IsTypeofObject(v) {
      if !v.Arr? {
        var current := GetJSON(storage, codec, key, Null);
        var present := Has(storage, key);
        if merge && present && IsObjectLike(current) {
          v := ShallowMerge(v, current);
        }
      }
      storage.SetItem(key, codec.encode(v));
    } else {
      storage.SetItem(key, ToJsString(v));
    }
  }

  /** `keys()`: every key, in index order. */
  method Keys(storage: LocalStorage) returns (arr: seq<string>)
    requires storage.Valid()
    ensures arr == storage.keyList
    ensures |arr| == storage.Length()
    ensures forall k :: k in arr <==> k in storage.items
  {
    arr := [];
    var i := 0;
    while i < storage.Length()
      invariant 0 <= i <= storage.Length()
      invariant arr == storage.keyList[..i]
    {
      var k := storage.Key(i);
      arr := arr + [k.value];
      i := i + 1;
    }
  }

  /** `has(key)`: the key is among `keys()`. */
  method Has(storage: LocalStorage, key: string) returns (present: bool)
    requires storage.Valid()
    ensures present <==> key in storage.items
  {
    var arr := Keys(storage);
    present := key in arr;
  }

  /** `remove(key)` */
  method Remove(storage: LocalStorage, key: string)
    requires storage.Valid()
    modifies storage
    ensures storage.Valid()
    ensures storage.items == old(storage.items) - {key}
    ensures storage.keyList == RemoveKey(old(storage.keyList), key)
  {
    storage.RemoveItem(key);
  }

  /** `getAndRemove(key, defaultValue, parseToJson)`: what `get` read, and the key is gone. */
  method GetAndRemove(storage: LocalStorage, codec: Codec, key: string, defaultValue: JsValue, parseToJson: bool)
    returns (value: JsValue)
    requires storage.Valid()
    modifies storage
    ensures storage.Valid()
    ensures value == GetIn(old(storage.items), codec, key, defaultValue, parseToJson)
    ensures key !in storage.items && storage.items == old(storage.items) - {key}
  {
    value := Get(storage, codec, key, defaultValue, parseToJson);
    Remove(storage, key);
  }

  /** `getJSONAndRemove(key, defaultValue)` */
  method GetJSONAndRemove(storage: LocalStorage, codec: Codec, key: string, defaultValue: JsValue)
    returns (value: JsValue)
    requires storage.Valid()
    modifies storage
    ensures storage.Valid()
    ensures value == GetIn(old(storage.items), codec, key, defaultValue, true)
    ensures key !in storage.items && storage.items == old(storage.items) - {key}
  {
    value := GetAndRemove(storage, codec, key, defaultValue, true);
  }

  /** `clearAll()` */
  method ClearAll(storage: LocalStorage)
    requires storage.Valid()
    modifies storage
    ensures storage.Valid() && storage.keyList == [] && storage.items == map[]
  {
    storage.Clear();
  }

  /** The allow-list `clearAllExcept` uses: a string becomes a one-element list, an
      array is used as it is, anything else becomes empty. */
  function ExceptList(exceptKeys: JsValue): (r: seq<JsValue>)
    ensures exceptKeys.Str? ==> r == [exceptKeys]
    ensures exceptKeys.Arr? ==> r == exceptKeys.items
    ensures !exceptKeys.Str? && !exceptKeys.Arr? ==> r == []
  {
    match exceptKeys
    case Str(_) => [exceptKeys]
    case Arr(items) => items
    case _ => []
  }

  /** The keys left by the forward sweep of `clearAllExcept` from index `i`: an
      allowed key is stepped over; any other key is removed, which moves the next key
      down into index `i`, and the index still advances past it. */
  function SweepFrom(keys: seq<string>, except: seq<JsValue>, i: nat): (r: seq<string>)
    ensures |r| <= |keys|
    ensures i <= |keys| ==> i <= |r| && r[..i] == keys[..i]
    decreases |keys| - i
  {
    if i >= |keys| then keys
    else if Str(keys[i]) in except then SweepFrom(keys, except, i + 1)
    else SweepFrom(RemoveAt(keys, i), except, i + 1)
  }

  /** `clearAllExcept(exceptKeys)` */
  method ClearAllExcept(storage: LocalStorage, exceptKeys: JsValue)
    requires storage.Valid()
    modifies storage
    ensures storage.Valid()
    ensures storage.keyList == SweepFrom(old(storage.keyList), ExceptList(exceptKeys), 0)
    ensures forall k :: k in storage.items ==> k in old(storage.items) && storage.items[k] == old(storage.items)[k]
  {
    var except := ExceptList(exceptKeys);
    var i := 0;
    while i < storage.Length()
      invariant storage.Valid()
      invariant SweepFrom(storage.keyList, except, i) == SweepFrom(old(storage.keyList), except, 0)
      invariant forall k :: k in storage.items ==> k in old(storage.items) && storage.items[k] == old(storage.items)[k]
      decreases storage.Length() - i
    {
      var k := storage.Key(i).value;
      if Str(k) !in except {
        RemoveKeyAt(storage.keyList, i);
        storage.RemoveItem(k);
      }
      i := i + 1;
    }
  }

  /** The sweep removes nothing on the allow-list. */
  lemma {:induction false} SweepKeepsAllowed(keys: seq<string>, except: seq<JsValue>, i: nat, k: string)
    requires k in keys && Str(k) in except
    ensures k in SweepFrom(keys, except, i)
    decreases |keys| - i
  {
    if i < |keys| {
      if Str(keys[i]) in except {
        SweepKeepsAllowed(keys, except, i + 1, k);
      } else {
        var j :| 0 <= j < |keys| && keys[j] == k;
        assert k in RemoveAt(keys, i) by {
          if j < i {
            assert RemoveAt(keys, i)[j] == k;
          } else {
            assert j != i;
            assert RemoveAt(keys, i)[j - 1] == k;
          }
        }
        SweepKeepsAllowed(RemoveAt(keys, i), except, i + 1, k);
      }
    }
  }

  /** The sweep only removes keys: every remaining key was there before. */
  lemma {:induction false} SweepOnlyRemoves(keys: seq<string>, except: seq<JsValue>, i: nat)
    ensures forall k :: k in SweepFrom(keys, except, i) ==> k in keys
    decreases |keys| - i
  {
    if i < |keys| {
      if Str(keys[i]) in except {
        SweepOnlyRemoves(keys, except, i + 1);
      } else {
        SweepOnlyRemoves(RemoveAt(keys, i), except, i + 1);
      }
    }
  }

  /** Each removal is followed by a key that the advancing index skips, so the sweep
      from `i` removes at most one key more than it leaves past `i`. */
  lemma {:induction false} SweepRemovalBound(keys: seq<string>, except: seq<JsValue>, i: nat)
    requires i <= |keys|
    ensures |keys| - |SweepFrom(keys, except, i)| <= |SweepFrom(keys, except, i)| - i + 1
    decreases |keys| - i
  {
    if i < |keys| {
      if Str(keys[i]) in except {
        SweepRemovalBound(keys, except, i + 1);
      } else if i + 1 <= |keys| - 1 {
        SweepRemovalBound(RemoveAt(keys, i), except, i + 1);
      }
    }
  }

  /** `clearAllExcept` leaves at least half of the keys (rounded down), whatever the
      allow-list: with two or more keys it never empties the storage. */
  lemma SweepLeavesHalf(keys: seq<string>, except: seq<JsValue>)
    ensures 2 * |SweepFrom(keys, except, 0)| + 1 >= |keys|
  {
    SweepRemovalBound(keys, except, 0);
  }

  /** With an empty allow-list and keys `a`, `b`, the sweep removes `a` and leaves `b`. */
  lemma SweepSkipsShiftedKey()
    ensures SweepFrom(["a", "b"], [], 0) == ["b"]
  {
    assert RemoveAt(["a", "b"], 0) == ["b"];
  }

  /** `clearAll()` differs from `clearAllExcept([])`: the first always empties the
      storage, the second leaves `b` behind when the keys are `a`, `b`. */
  lemma ClearAllExceptNotClearAll()
    ensures SweepFrom(["a", "b"], ExceptList(Arr([])), 0) != []
  {
    SweepSkipsShiftedKey();
  }
}

=== FILE: js.dfy ===
/** JavaScript values as the client code sees them, with the coercions it relies on:
    truthiness (`!!v`), `typeof v === 'object'`, lodash's `_.isObject`, own-property
    access, string conversion (`String(v)` and template literals) and the error objects
    that rejected network calls carry. */
module Js {

  datatype Option<+T> = None | Some(value: T)

  /** A JavaScript value. Numbers are integers here; functions, symbols and bigints do
      not reach the modelled code. `Obj` is a plain object with its own enumerable
      entries in insertion order; `Tagged` is a built-in object of another class
      (a Date, a Map, ...), which has no own enumerable entries. */
  datatype JsValue =
    | Undefined
    | Null
    | Bool(b: bool)
    | Num(n: int)
    | Str(s: string)
    | Arr(items: seq<JsValue>)
    | Obj(fields: Fields)
    | Tagged(tag: string)

  type Fields = seq<(string, JsValue)>

  /** `!!v` */
  predicate Truthy(v: JsValue)
  {
    match v
    case Undefined => false
    case Null => false
    case Bool(b) => b
    case Num(n) => n != 0
    case Str(s) => s != ""
    case _ => true
  }

  /** `v === null || v === undefined`, where `?.` short-circuits */
  predicate Nullish(v: JsValue)
  {
    v.Undefined? || v.Null?
  }

  /** `typeof v === 'object'` (true of null and of arrays) */
  predicate IsTypeofObject(v: JsValue)
  {
    v.Null? || v.Arr? || v.Obj? || v.Tagged?
  }

  /** lodash `_.isObject(v)`: a non-null object (functions are not modelled) */
  predicate IsObjectLike(v: JsValue)
  {
    v.Arr? || v.Obj? || v.Tagged?
  }

  /** A value other than null and undefined, so that reading a property of it does not throw. */
  type Defined = v: JsValue | !Nullish(v) witness Obj([])

  function KeysOf(fs: Fields): set<string>
  {
    if fs == [] then {} else {fs[0].0} + KeysOf(fs[1..])
  }

  predicate UniqueKeys(fs: Fields)
  {
    forall i, j :: 0 <= i < j < |fs| ==> fs[i].0 != fs[j].0
  }

  /** `o[k]` for an own property `k` of a plain object; `undefined` when there is none. */
  function Lookup(fs: Fields, k: string): (v: JsValue)
    ensures k !in KeysOf(fs) ==> v == Undefined
  {
    if fs == [] then Undefined
    else if fs[0].0 == k then fs[0].1
    else Lookup(fs[1..], k)
  }

  /** Every key of a field list is in its key set. */
  lemma {:induction false} KeysOfHasEach(fs: Fields)
    ensures forall j :: 0 <= j < |fs| ==> fs[j].0 in KeysOf(fs)
  {
    if fs != [] {
      KeysOfHasEach(fs[1..]);
      forall j | 0 < j < |fs| ensures fs[j].0 in KeysOf(fs) {
        assert fs[j].0 == fs[1..][j - 1].0;
      }
    }
  }

  /** A key set holds nothing but the keys of the list. */
  lemma {:induction false} KeysOfOnlyEach(fs: Fields)
    ensures forall k :: k in KeysOf(fs) ==> exists j :: 0 <= j < |fs| && fs[j].0 == k
  {
    if fs != [] {
      KeysOfOnlyEach(fs[1..]);
      forall k | k in KeysOf(fs) ensures exists j :: 0 <= j < |fs| && fs[j].0 == k {
        if k != fs[0].0 {
          assert k in KeysOf(fs[1..]);
          var j :| 0 <= j < |fs[1..]| && fs[1..][j].0 == k;
          assert fs[j + 1].0 == k;
        }
      }
    }
  }

  /** `o[k] = v`: an existing key keeps its position and takes the new value, a new
      key is appended at the end. */
  function Put(fs: Fields, k: string, v: JsValue): (r: Fields)
    ensures KeysOf(r) == KeysOf(fs) + {k}
    ensures Lookup(r, k) == v
    ensures forall k' :: k' != k ==> Lookup(r, k') == Lookup(fs, k')
    ensures |r| == if k in KeysOf(fs) then |fs| else |fs| + 1
    ensures UniqueKeys(fs) ==> UniqueKeys(r)
  {
    if fs == [] then [(k, v)]
    else if fs[0].0 == k then [(k, v)] + fs[1..]
    else
      var rest := Put(fs[1..], k, v);
      var r := [fs[0]] + rest;
      assert UniqueKeys(fs) ==> UniqueKeys(r) by {
        if UniqueKeys(fs) {
          assert fs[0].0 !in KeysOf(fs[1..]) by {
            KeysOfOnlyEach(fs[1..]);
            forall j | 0 <= j < |fs| - 1 ensures fs[1..][j].0 != fs[0].0 {
              assert fs[j + 1].0 != fs[0].0;
            }
          }
          assert UniqueKeys(fs[1..]) by {
            forall i, j | 0 <= i < j < |fs| - 1 ensures fs[1..][i].0 != fs[1..][j].0 {
              assert fs[i + 1].0 != fs[j + 1].0;
            }
          }
          KeysOfHasEach(rest);
          forall i, j | 0 <= i < j < |r| ensures r[i].0 != r[j].0 {
            if i == 0 {
              assert r[j].0 == rest[j - 1].0;
            } else {
              assert r[i].0 == rest[i - 1].0 && r[j].0 == rest[j - 1].0;
            }
          }
        }
      }
      r
  }

  /** Where a key first sits in a field list. */
  function KeyIndex(fs: Fields, k: string): (i: nat)
    requires k in KeysOf(fs)
    ensures i < |fs| && fs[i].0 == k
  {
    if fs[0].0 == k then 0 else 1 + KeyIndex(fs[1..], k)
  }

  /** `v.k` for a value that is neither null nor undefined: an own property of a plain
      object, the `length` of a string or an array, `undefined` otherwise. */
  function Prop(v: Defined, k: string): JsValue
  {
    match v
    case Obj(fs) => Lookup(fs, k)
    case Str(s) => if k == "length" then Num(|s|) else Undefined
    case Arr(items) => if k == "length" then Num(|items|) else Undefined
    case _ => Undefined
  }

  /** `v?.k` */
  function OptProp(v: JsValue, k: string): JsValue
  {
    if Nullish(v) then Undefined else Prop(v, k)
  }

  function DigitChar(d: nat): char
    requires d < 10
  {
    "0123456789"[d]
  }

  function NatToString(n: nat): (s: string)
    ensures s != []
  {
    if n < 10 then [DigitChar(n)] else NatToString(n / 10) + [DigitChar(n % 10)]
  }

  /** Decimal text of an integer, as `String(n)` writes it. */
  function IntToString(i: int): string
  {
    if i < 0 then "-" + NatToString(-i) else NatToString(i)
  }

  /** `String(v)`, which is also what a template literal `${v}` inserts. Arrays join
      their elements with commas, writing null and undefined as empty text. */
  function ToJsString(v: JsValue): string
    decreases v
  {
    match v
    case Undefined => "undefined"
    case Null => "null"
    case Bool(b) => if b then "true" else "false"
    case Num(n) => IntToString(n)
    case Str(s) => s
    case Arr(items) => JoinItems(items)
    case Obj(_) => "[object Object]"
    case Tagged(t) => "[object " + t + "]"
  }

  function JoinItems(items: seq<JsValue>): string
    decreases items
  {
    if items == [] then ""
    else
      var head := if Nullish(items[0]) then "" else ToJsString(items[0]);
      if |items| == 1 then head else head + "," + JoinItems(items[1..])
  }

  predicate StartsWith(s: string, prefix: string)
  {
    |prefix| <= |s| && s[..|prefix|] == prefix
  }

  predicate EndsWith(s: string, suffix: string)
  {
    |suffix| <= |s| && s[|s| - |suffix|..] == suffix
  }

  /** `s` contains `t` somewhere (an unanchored regular-expression alternative). */
  predicate Contains(s: string, t: string)
    decreases |s|
  {
    StartsWith(s, t) || (s != [] && Contains(s[1..], t))
  }

  /** A rejected call: `error.response` (a plain object, or absent) and `error.message`. */
  datatype JsError = JsError(response: Option<Fields>, message: string)

  /** A stand-in for the message a `TypeError` carries when code reads a property of
      undefined or null; the exact text is engine-specific and only its identity matters. */
  const TypeErrorMessage: string := "Cannot read properties of undefined"

  function TypeError(): JsError
  {
    JsError(None, TypeErrorMessage)
  }

  /** `error.response ?? error.message`: what the stores keep as a displayable error. */
  function ResponseOrMessage(e: JsError): (v: JsValue)
    ensures e.response.None? ==> v == Str(e.message)
    ensures e.response.Some? ==> v == Obj(e.response.value)
  {
    match e.response
    case Some(fs) => Obj(fs)
    case None => Str(e.message)
  }

  /** The outcome of an awaited call: its value, or the error it was rejected with. */
  datatype Result<+T> = Ok(value: T) | Err(error: JsError)
}

=== FILE: post_store.dfy ===
/** The post store: two paginated collections of posts (the feed and one user's
    posts) and the actions that load pages into them, create a post and replace a
    post wherever it is listed. Each awaited request is an input: the response body,
    or the error the request was rejected with. */
module PostStore {
  import opened Js
  import opened Urls

  /** A listed post: an object that can be asked for its `id`. */
  type Post = Defined

  /** `p.id` */
  function Id(p: Post): JsValue
  {
    Prop(p, "id")
  }

  /** One collection: its posts, the pagination metadata of the last page, and the
      loading flags. `userId` is the `user_id` property, which only the user-posts
      structure has (`Undefined` elsewhere). */
  datatype Collection = Collection(
    data: seq<Post>,
    meta: JsValue,
    isFetchingPosts: bool,
    fetchPostsError: Option<JsError>,
    initialFetch: bool,
    hasFetchedInitialPosts: bool,
    userId: JsValue)

  /** The metadata of an empty collection, in declaration order. */
  const DefaultMeta: Fields := [
    ("current_page", Null), ("first_page_url", Null), ("from", Null), ("last_page", Null),
    ("last_page_url", Null), ("links", Arr([])), ("next_page_url", Null), ("path", Null),
    ("per_page", Null), ("prev_page_url", Null), ("to", Null), ("total", Null),
    ("is_last_page", Bool(false)), ("has_more_pages", Bool(true)), ("has_data", Bool(true)),
    ("is_empty", Bool(false))]

  /** An empty collection has no next page. */
  lemma DefaultMetaHasNoNextPage()
    ensures Prop(Obj(DefaultMeta), "next_page_url") == Null
  {
    var k := "next_page_url";
    var m := DefaultMeta;
    assert m[6] == (k, Null);
  }

  /** `getPostsStructure()` */
  function PostsStructure(): (c: Collection)
    ensures c.data == [] && !c.isFetchingPosts && c.fetchPostsError.None?
    ensures c.initialFetch && !c.hasFetchedInitialPosts && c.userId == Undefined
  {
    Collection([], Obj(DefaultMeta), false, None, true, false, Undefined)
  }

  /** `getUserPostsStructure()`: the same, with a `user_id` of null. */
  function UserPostsStructure(): (c: Collection)
    ensures c == PostsStructure().(userId := Null)
  {
    PostsStructure().(userId := Null)
  }

  /** The collection names of `actionMapping`. */
  datatype CollectionKey = Posts | UserPosts

  /** `actionMapping[action]` for an action among its keys. */
  function ActionMapping(action: JsValue): (key: Option<CollectionKey>)
    ensures key == Some(Posts) <==> action == Str("fetch_posts")
    ensures key == Some(UserPosts) <==> action == Str("fetch_user_posts")
  {
    if action == Str("fetch_posts") then Some(Posts)
    else if action == Str("fetch_user_posts") then Some(UserPosts)
    else None
  }

  /** The whole store state. */
  datatype PostState = PostState(posts: Collection, userPosts: Collection)
  {
    /** `this[key]` */
    function Get(key: CollectionKey): Collection
    {
      match key
      case Posts => posts
      case UserPosts => userPosts
    }

    /** The state with `this[key]` replaced. */
    function Set(key: CollectionKey, c: Collection): (s: PostState)
      ensures s.Get(key) == c
      ensures forall other :: other != key ==> s.Get(other) == Get(other)
    {
      match key
      case Posts => this.(posts := c)
      case UserPosts => this.(userPosts := c)
    }
  }

  /** `getDefaultState()` */
  function DefaultPostState(): (s: PostState)
    ensures s.posts.data == [] && s.userPosts.data == []
    ensures s.posts == PostsStructure() && s.userPosts == UserPostsStructure()
  {
    PostState(PostsStructure(), UserPostsStructure())
  }

  /** The `user_id` property is never assigned by any action: the feed has none and
      the user-posts collection keeps null. */
  predicate UserIdUnset(s: PostState)
  {
    s.posts.userId == Undefined && s.userPosts.userId == Null
  }

  // ----- getPosts -----

  /** The properties of the `params` object `getPosts` reads; `onErrorIsFunction` is
      `_.isFunction(params.onError)`. */
  datatype GetPostsParams = GetPostsParams(
    paginate: JsValue,
    query: JsValue,
    userId: JsValue,
    action: JsValue,
    onErrorIsFunction: bool)

  /** `params.action || 'fetch_posts'` */
  function ActionOf(p: GetPostsParams): JsValue
  {
    if Truthy(p.action) then p.action else Str("fetch_posts")
  }

  /** `Object(params.query)`, for a query that is an object or absent. */
  function QueryOf(p: GetPostsParams): JsValue
  {
    if Nullish(p.query) then Obj([]) else p.query
  }

  /** `${URL_API_PROFILE}/${user_id}/posts` */
  function ProfilePostsUrl(env: Env, userId: JsValue): string
  {
    ProfileUrl(env) + "/" + ToJsString(userId) + "/posts"
  }

  /** A GET request: its URL and its query parameters. */
  datatype Request = Request(url: JsValue, query: JsValue)

  /** The body of a page of posts. */
  datatype Page = Page(data: seq<Post>, meta: JsValue)

  /** Where the `try` block of `getPosts` goes before its request: it returns, resets
      the user-posts collection and returns, throws (reading `next_page_url` of a
      missing `meta`), or requests `url`, appending when `append` is set. */
  datatype Plan = Return | ResetUserPosts | Throw(error: JsError) | Fetch(url: JsValue, append: bool)

  /** The `try` block of `getPosts` up to the request, for the collection `c`. */
  function PlanFor(c: Collection, env: Env, p: GetPostsParams): (r: Plan)
    ensures Truthy(p.paginate) && c.isFetchingPosts ==> r == Return
    ensures r.Throw? ==> Truthy(p.paginate) && Nullish(c.meta) && r.error == TypeError()
    ensures r == ResetUserPosts ==> !Truthy(p.paginate) && ActionOf(p) == Str("fetch_user_posts") && !Truthy(p.userId)
    ensures r.Fetch? && r.append ==>
              Truthy(p.paginate) && !c.isFetchingPosts && !Nullish(c.meta) &&
              r.url == Prop(c.meta, "next_page_url") && Truthy(r.url)
    ensures !Truthy(p.paginate) && ActionOf(p) != Str("fetch_user_posts") ==> r == Fetch(Str(PostsUrl(env)), false)
  {
    var userPostsAction := ActionOf(p) == Str("fetch_user_posts");
    if Truthy(p.paginate) then
      if c.isFetchingPosts then Return
      else if Nullish(c.meta) then Throw(TypeError())
      else
        var next := Prop(c.meta, "next_page_url");
        if !Truthy(next) then Return
        else if userPostsAction && Truthy(c.userId) && p.userId != Bool(true) then
          Fetch(if Truthy(p.userId) then Str(ProfilePostsUrl(env, p.userId)) else Str(PostsUrl(env)), false)
        else Fetch(next, true)
    else if userPostsAction then
      if Truthy(p.userId) then Fetch(Str(ProfilePostsUrl(env, p.userId)), false) else ResetUserPosts
    else Fetch(Str(PostsUrl(env)), false)
  }

  /** The `finally` block: the collection is no longer loading and has had its
      initial load. */
  function Finally(c: Collection): (r: Collection)
    ensures !r.isFetchingPosts && !r.initialFetch && r.hasFetchedInitialPosts
    ensures r.data == c.data && r.meta == c.meta && r.fetchPostsError == c.fetchPostsError && r.userId == c.userId
  {
    c.(initialFetch := false, isFetchingPosts := false, hasFetchedInitialPosts := true)
  }

  /** The `catch` block: the error is kept as it was thrown. */
  function Caught(c: Collection, e: JsError): Collection
  {
    c.(fetchPostsError := Some(e))
  }

  /** The `onError(error)` call the `catch` block makes, if `onError` is a function. */
  function OnErrorCall(p: GetPostsParams, e: JsError): (call: Option<JsError>)
    ensures call.Some? <==> p.onErrorIsFunction
    ensures call.Some? ==> call.value == e
  {
    if p.onErrorIsFunction then Some(e) else None
  }

  /** The posts of `page` whose id no post of `loaded` has, in page order; two posts
      of the page with the same id are both kept. */
  function NewOnly(loaded: seq<Post>, page: seq<Post>): (r: seq<Post>)
    ensures |r| <= |page|
  {
    if page == [] then []
    else
      var rest := NewOnly(loaded, page[1..]);
      if HasId(loaded, Id(page[0])) then rest else [page[0]] + rest
  }

  /** Some post of `ps` has the id `id` (`ps.some(p => p.id === id)`). */
  predicate HasId(ps: seq<Post>, id: JsValue)
  {
    exists i :: 0 <= i < |ps| && Id(ps[i]) == id
  }

  /** The appended data: the loaded posts, then the new posts of the page. */
  function AppendNew(loaded: seq<Post>, page: seq<Post>): (r: seq<Post>)
    ensures |loaded| <= |r| <= |loaded| + |page|
    ensures r[..|loaded|] == loaded
  {
    loaded + NewOnly(loaded, page)
  }

  /** A page has landed: the data is replaced, or extended with the new posts, and the
      metadata is the page's. */
  function Landed(c: Collection, page: Page, append: bool): Collection
  {
    c.(data := if append then AppendNew(c.data, page.data) else page.data, meta := page.meta)
  }

  /** How far `getPosts` got before its request. */
  datatype Step =
    | NotStarted                                                  // an unknown action: returned before the `try`
    | Finished(onErrorCalledWith: Option<JsError>)                // returned or threw inside the `try`; `finally` ran
    | Awaiting(key: CollectionKey, request: Request, append: bool) // the request is in flight

  /** The step `getPosts(params)` reaches before awaiting. */
  function BeginStep(s: PostState, env: Env, p: GetPostsParams): Step
  {
    match ActionMapping(ActionOf(p))
    case None => NotStarted
    case Some(key) =>
      match PlanFor(s.Get(key), env, p)
      case Return => Finished(None)
      case ResetUserPosts => Finished(None)
      case Throw(e) => Finished(OnErrorCall(p, e))
      case Fetch(url, append) => Awaiting(key, Request(url, QueryOf(p)), append)
  }

  /** The state `getPosts(params)` leaves before awaiting. */
  function BeginState(s: PostState, env: Env, p: GetPostsParams): PostState
  {
    match ActionMapping(ActionOf(p))
    case None => s
    case Some(key) =>
      var c := s.Get(key);
      match PlanFor(c, env, p)
      case Return => s.Set(key, Finally(c))
      case ResetUserPosts => s.Set(key, Finally(UserPostsStructure()))
      case Throw(e) => s.Set(key, Finally(Caught(c, e)))
      case Fetch(_, _) => s.Set(key, c.(isFetchingPosts := true))
  }

  /** The state once the request for `key` has settled with `response`. */
  function CompleteState(s: PostState, key: CollectionKey, append: bool, response: Result<Page>): PostState
  {
    var c := s.Get(key);
    match response
    case Ok(page) => s.Set(key, Finally(Landed(c, page, append)))
    case Err(e) => s.Set(key, Finally(Caught(c, e)))
  }

  /** The whole of `getPosts(params)` when its request (if it makes one) settles with
      `response`: the final state, the request made, and the error `onError` received. */
  function GetPostsOutcome(s: PostState, env: Env, p: GetPostsParams, response: Result<Page>)
    : (r: (PostState, Option<Request>, Option<JsError>))
    ensures r.1.Some? ==> ActionMapping(ActionOf(p)).Some?
    ensures r.2.Some? ==> p.onErrorIsFunction
    ensures r.1.Some? && r.2.Some? ==> response.Err? && r.2.value == response.error
    ensures r.1.Some? && response.Ok? ==> r.2.None?
  {
    var t := BeginState(s, env, p);
    match BeginStep(s, env, p)
    case NotStarted => (t, None, None)
    case Finished(call) => (t, None, call)
    case Awaiting(key, request, append) =>
      (CompleteState(t, key, append, response), Some(request),
       match response case Err(e) => OnErrorCall(p, e) case Ok(_) => None)
  }

  /** An action outside `actionMapping` returns before touching any state. */
  lemma UnknownActionTouchesNothing(s: PostState, env: Env, p: GetPostsParams, response: Result<Page>)
    requires ActionMapping(ActionOf(p)).None?
    ensures GetPostsOutcome(s, env, p, response) == (s, None, None)
  {
  }

  /** `getPosts` changes at most the collection its action names. */
  lemma OtherCollectionUntouched(s: PostState, env: Env, p: GetPostsParams, response: Result<Page>, other: CollectionKey)
    requires ActionMapping(ActionOf(p)).Some? && ActionMapping(ActionOf(p)).value != other
    ensures GetPostsOutcome(s, env, p, response).0.Get(other) == s.Get(other)
  {
  }

  /** Whatever path a known action takes, the `finally` block leaves the collection
      not loading and initially loaded. */
  lemma FlagsSettleAfterwards(s: PostState, env: Env, p: GetPostsParams, response: Result<Page>)
    requires ActionMapping(ActionOf(p)).Some?
    ensures var c := GetPostsOutcome(s, env, p, response).0.Get(ActionMapping(ActionOf(p)).value);
            !c.isFetchingPosts && !c.initialFetch && c.hasFetchedInitialPosts
  {
  }

  /** A paginated call while a load is running, or without a next page, makes no
      request and keeps the data and metadata; the `finally` block still runs. */
  lemma PaginationGuardStops(s: PostState, env: Env, p: GetPostsParams, response: Result<Page>)
    requires ActionMapping(ActionOf(p)).Some? && Truthy(p.paginate)
    requires var c := s.Get(ActionMapping(ActionOf(p)).value);
             c.isFetchingPosts || (!Nullish(c.meta) && !Truthy(Prop(c.meta, "next_page_url")))
    ensures var key := ActionMapping(ActionOf(p)).value;
            var (t, request, call) := GetPostsOutcome(s, env, p, response);
            request == None && call == None &&
            t.Get(key) == Finally(s.Get(key))
  {
  }

  /** On a fresh store a paginated call does nothing but settle the flags. */
  lemma PaginatingFreshStoreStops(env: Env, p: GetPostsParams, response: Result<Page>)
    requires ActionMapping(ActionOf(p)).Some? && Truthy(p.paginate)
    ensures GetPostsOutcome(DefaultPostState(), env, p, response).1 == None
  {
    DefaultMetaHasNoNextPage();
  }

  /** A paginated call when the metadata is missing throws before any request; the
      error is recorded and handed to `onError`. */
  lemma MissingMetaIsCaught(s: PostState, env: Env, p: GetPostsParams, response: Result<Page>)
    requires ActionMapping(ActionOf(p)).Some? && Truthy(p.paginate)
    requires var c := s.Get(ActionMapping(ActionOf(p)).value);
             !c.isFetchingPosts && Nullish(c.meta)
    ensures var key := ActionMapping(ActionOf(p)).value;
            var (t, request, call) := GetPostsOutcome(s, env, p, response);
            request == None && call == OnErrorCall(p, TypeError()) &&
            t.Get(key) == Finally(Caught(s.Get(key), TypeError()))
  {
  }

  /** A non-paginated load marks the collection as loading while the request is in
      flight; on success it replaces the data and the metadata with the page's. */
  lemma FreshLoadReplaces(s: PostState, env: Env, p: GetPostsParams, page: Page)
    requires ActionMapping(ActionOf(p)).Some? && !Truthy(p.paginate)
    requires ActionOf(p) == Str("fetch_user_posts") ==> Truthy(p.userId)
    ensures var key := ActionMapping(ActionOf(p)).value;
            BeginStep(s, env, p).Awaiting? && !BeginStep(s, env, p).append &&
            BeginState(s, env, p).Get(key).isFetchingPosts
    ensures var key := ActionMapping(ActionOf(p)).value;
            var c := GetPostsOutcome(s, env, p, Ok(page)).0.Get(key);
            c.data == page.data && c.meta == page.meta && c.fetchPostsError == s.Get(key).fetchPostsError
  {
  }

  /** The user's posts load from the profile URL. */
  lemma UserPostsLoadFromProfile(s: PostState, env: Env, p: GetPostsParams)
    requires ActionOf(p) == Str("fetch_user_posts") && !Truthy(p.paginate) && Truthy(p.userId)
    ensures BeginStep(s, env, p) == Awaiting(UserPosts, Request(Str(ProfilePostsUrl(env, p.userId)), QueryOf(p)), false)
  {
  }

  /** `fetch_user_posts` without a user id, not paginated, resets the user posts to
      their default structure without a request; `finally` then settles the flags. */
  lemma UserPostsWithoutIdReset(s: PostState, env: Env, p: GetPostsParams, response: Result<Page>)
    requires ActionOf(p) == Str("fetch_user_posts") && !Truthy(p.paginate) && !Truthy(p.userId)
    ensures var (t, request, call) := GetPostsOutcome(s, env, p, response);
            request == None && call == None && t.posts == s.posts &&
            t.userPosts == UserPostsStructure().(initialFetch := false, hasFetchedInitialPosts := true)
  {
  }

  /** A paginated success keeps the loaded posts and adds the page's new posts after
      them, with the page's metadata. */
  lemma PaginatedLoadAppends(s: PostState, env: Env, p: GetPostsParams, page: Page)
    requires UserIdUnset(s)
    requires ActionMapping(ActionOf(p)).Some? && Truthy(p.paginate)
    requires var c := s.Get(ActionMapping(ActionOf(p)).value);
             !c.isFetchingPosts && !Nullish(c.meta) && Truthy(Prop(c.meta, "next_page_url"))
    ensures var key := ActionMapping(ActionOf(p)).value;
            var c := s.Get(key);
            GetPostsOutcome(s, env, p, Ok(page)).1 == Some(Request(Prop(c.meta, "next_page_url"), QueryOf(p))) &&
            GetPostsOutcome(s, env, p, Ok(page)).0.Get(key).data == AppendNew(c.data, page.data) &&
            GetPostsOutcome(s, env, p, Ok(page)).0.Get(key).meta == page.meta
  {
  }

  /** A failed request leaves data and metadata as they were, records the error, and
      hands it to `onError` exactly when that is a function. */
  lemma FailureKeepsData(s: PostState, env: Env, p: GetPostsParams, e: JsError)
    requires BeginStep(s, env, p).Awaiting?
    ensures var key := BeginStep(s, env, p).key;
            var (t, request, call) := GetPostsOutcome(s, env, p, Err(e));
            var c := t.Get(key);
            c.data == s.Get(key).data && c.meta == s.Get(key).meta &&
            c.fetchPostsError == Some(e) && !c.isFetchingPosts &&
            (call.Some? <==> p.onErrorIsFunction) && (call.Some? ==> call.value == e)
  {
  }

  /** `getPosts` never assigns `user_id`. */
  lemma GetPostsKeepsUserIdUnset(s: PostState, env: Env, p: GetPostsParams, response: Result<Page>)
    requires UserIdUnset(s)
    ensures UserIdUnset(GetPostsOutcome(s, env, p, response).0)
  {
  }

  /** Because `user_id` is never assigned, the branch that switches the user-posts
      collection to another user's posts is never taken: a paginated call always
      follows `next_page_url` and appends. */
  lemma OwnerSwitchNeverTaken(s: PostState, env: Env, p: GetPostsParams)
    requires UserIdUnset(s) && ActionMapping(ActionOf(p)).Some?
    ensures var c := s.Get(ActionMapping(ActionOf(p)).value);
            PlanFor(c, env, p).Fetch? && Truthy(p.paginate) ==>
              PlanFor(c, env, p) == Fetch(Prop(c.meta, "next_page_url"), true)
  {
  }

  /** No other action assigns `user_id` either: updating, creating, clearing the
      errors and resetting all keep it unset, so the owner-switch branch stays dead in
      every reachable state. */
  lemma OtherActionsKeepUserIdUnset(s: PostState, incoming: JsValue, post: Post)
    requires UserIdUnset(s)
    ensures UserIdUnset(UpdatedState(s, incoming))
    ensures UserIdUnset(CreatedState(s, post))
    ensures UserIdUnset(ErrorsCleared(s))
    ensures UserIdUnset(DefaultPostState())
  {
  }

  // ----- the appended data -----

  /** A post of the page is added exactly when no loaded post has its id. */
  lemma {:induction false} NewOnlyMembers(loaded: seq<Post>, page: seq<Post>, x: Post)
    ensures x in NewOnly(loaded, page) <==> x in page && !HasId(loaded, Id(x))
  {
    if page != [] {
      NewOnlyMembers(loaded, page[1..], x);
      assert x in page <==> x == page[0] || x in page[1..];
    }
  }

  /** The new posts of consecutive stretches of a page come in page order. */
  lemma {:induction false} NewOnlyConcat(loaded: seq<Post>, a: seq<Post>, b: seq<Post>)
    ensures NewOnly(loaded, a + b) == NewOnly(loaded, a) + NewOnly(loaded, b)
  {
    if a != [] {
      assert (a + b)[1..] == a[1..] + b;
      NewOnlyConcat(loaded, a[1..], b);
    } else {
      assert a + b == b;
    }
  }

  /** Posts whose ids are all loaded add nothing. */
  lemma {:induction false} NewOnlyNothingNew(loaded: seq<Post>, page: seq<Post>)
    requires forall j :: 0 <= j < |page| ==> HasId(loaded, Id(page[j]))
    ensures NewOnly(loaded, page) == []
  {
    if page != [] {
      assert HasId(loaded, Id(page[0]));
      NewOnlyNothingNew(loaded, page[1..]);
    }
  }

  /** Appending the same page twice adds its posts once. */
  lemma AppendTwiceSameAsOnce(loaded: seq<Post>, page: seq<Post>)
    ensures AppendNew(AppendNew(loaded, page), page) == AppendNew(loaded, page)
  {
    var once := AppendNew(loaded, page);
    forall j | 0 <= j < |page| ensures HasId(once, Id(page[j])) {
      var x := page[j];
      NewOnlyMembers(loaded, page, x);
      if HasId(loaded, Id(x)) {
        var i :| 0 <= i < |loaded| && Id(loaded[i]) == Id(x);
        assert once[i] == loaded[i];
      } else {
        var i :| 0 <= i < |NewOnly(loaded, page)| && NewOnly(loaded, page)[i] == x;
        assert once[|loaded| + i] == x;
      }
    }
    NewOnlyNothingNew(once, page);
  }

  /** Duplicates inside one page are not filtered: two copies of a new post both land. */
  lemma PageDuplicatesKept(loaded: seq<Post>, x: Post)
    requires !HasId(loaded, Id(x))
    ensures AppendNew(loaded, [x, x]) == loaded + [x, x]
  {
    assert [x, x][1..] == [x];
    assert [x][1..] == [];
    assert NewOnly(loaded, [x]) == [x];
  }

  // ----- updatePostByIndex, createPost and the single-post requests -----

  /** `ps.findIndex(p => p.id === id)`: the first index whose post has the id, or -1. */
  function FindIndex(ps: seq<Post>, id: JsValue): (i: int)
    ensures -1 <= i < |ps|
    ensures i >= 0 ==> Id(ps[i]) == id && forall j :: 0 <= j < i ==> Id(ps[j]) != id
    ensures i == -1 ==> forall j :: 0 <= j < |ps| ==> Id(ps[j]) != id
  {
    if ps == [] then -1
    else if Id(ps[0]) == id then 0
    else
      var k := FindIndex(ps[1..], id);
      if k == -1 then -1 else k + 1
  }

  /** `data?.id` */
  function IncomingId(incoming: JsValue): JsValue
  {
    OptProp(incoming, "id")
  }

  /** One collection's data after `updatePostByIndex(incoming)`. */
  function ReplaceFirst(ps: seq<Post>, incoming: JsValue): (r: seq<Post>)
    ensures |r| == |ps|
  {
    var index := FindIndex(ps, IncomingId(incoming));
    if index > -1 && Truthy(IncomingId(incoming)) then ps[index := incoming] else ps
  }

  /** Only the first post with the incoming id is replaced, and only when that id is
      truthy; every other post stays where it was. */
  lemma ReplaceFirstExactly(ps: seq<Post>, incoming: JsValue, j: nat)
    requires j < |ps|
    ensures var id := IncomingId(incoming);
            ReplaceFirst(ps, incoming)[j] ==
              if Truthy(id) && Id(ps[j]) == id && (forall i :: 0 <= i < j ==> Id(ps[i]) != id)
              then incoming else ps[j]
  {
  }

  /** Replacing with the same post twice is the same as once. */
  lemma ReplaceFirstIdempotent(ps: seq<Post>, incoming: JsValue)
    ensures ReplaceFirst(ReplaceFirst(ps, incoming), incoming) == ReplaceFirst(ps, incoming)
  {
    var id := IncomingId(incoming);
    var once := ReplaceFirst(ps, incoming);
    var index := FindIndex(ps, id);
    if index > -1 && Truthy(id) {
      assert Id(once[index]) == id;
      forall j | 0 <= j < index ensures Id(once[j]) != id {
        assert once[j] == ps[j];
      }
      assert FindIndex(once, id) == index;
    }
  }

  /** `updatePostByIndex(data)` over the whole state. */
  function UpdatedState(s: PostState, incoming: JsValue): (t: PostState)
    ensures |t.posts.data| == |s.posts.data| && |t.userPosts.data| == |s.userPosts.data|
    ensures t.posts.(data := s.posts.data) == s.posts && t.userPosts.(data := s.userPosts.data) == s.userPosts
  {
    s.(posts := s.posts.(data := ReplaceFirst(s.posts.data, incoming)),
       userPosts := s.userPosts.(data := ReplaceFirst(s.userPosts.data, incoming)))
  }

  /** A payload without a truthy id changes nothing. */
  lemma UpdateWithoutIdKeepsState(s: PostState, incoming: JsValue)
    requires !Truthy(IncomingId(incoming))
    ensures UpdatedState(s, incoming) == s
  {
  }

  /** `posts.data.unshift(post)`: the created post heads the feed; the user posts are
      not touched. */
  function CreatedState(s: PostState, post: Post): (t: PostState)
    ensures |t.posts.data| == |s.posts.data| + 1
    ensures t.posts.data[0] == post && t.posts.data[1..] == s.posts.data
    ensures t.userPosts == s.userPosts
    ensures t.posts.(data := s.posts.data) == s.posts
  {
    s.(posts := s.posts.(data := [post] + s.posts.data))
  }

  /** `clearErrors()` */
  function ErrorsCleared(s: PostState): (t: PostState)
    ensures t.posts.fetchPostsError.None? && t.userPosts.fetchPostsError.None?
    ensures t.posts.(fetchPostsError := s.posts.fetchPostsError) == s.posts
    ensures t.userPosts.(fetchPostsError := s.userPosts.fetchPostsError) == s.userPosts
  {
    s.(posts := s.posts.(fetchPostsError := None), userPosts := s.userPosts.(fetchPostsError := None))
  }

  /** `${URL_API_POSTS}/${id}`: the URL `getPost(id)` requests. */
  function PostUrl(env: Env, id: JsValue): (url: string)
    ensures url == env.api + "/posts/" + ToJsString(id)
  {
    PostsUrl(env) + "/" + ToJsString(id)
  }

  /** `${URL_API_POSTS}/${id}/images`: the URL `getPostImages(id)` requests; the
      response body is returned as it is. */
  function PostImagesUrl(env: Env, id: JsValue): (url: string)
    ensures url == env.api + "/posts/" + ToJsString(id) + "/images"
  {
    PostsUrl(env) + "/" + ToJsString(id) + "/images"
  }

  /** An HTTP method. */
  datatype Verb = HttpGet | HttpPost | HttpDelete

  /** The request `likeOrUnlikePost(post)` sends: DELETE on the unlike URL for a liked
      post, POST on the like URL otherwise; reading `is_liked` of a missing post
      throws before any request. */
  function LikeRequest(env: Env, post: JsValue): (r: Result<(Verb, string)>)
    ensures Nullish(post) <==> r.Err?
    ensures r.Ok? && Truthy(Prop(post, "is_liked")) ==>
              r.value == (HttpDelete, env.api + "/likes/unlike" + "/post/" + ToJsString(Prop(post, "id")))
    ensures r.Ok? && !Truthy(Prop(post, "is_liked")) ==>
              r.value == (HttpPost, env.api + "/likes/like" + "/post/" + ToJsString(Prop(post, "id")))
  {
    if Nullish(post) then Err(TypeError())
    else if Truthy(Prop(post, "is_liked")) then Ok((HttpDelete, LikesUnlikeUrl(env) + "/post/" + ToJsString(Prop(post, "id"))))
    else Ok((HttpPost, LikesLikeUrl(env) + "/post/" + ToJsString(Prop(post, "id"))))
  }

  /** The `post` store. */
  class PostStore {
    var posts: Collection
    var userPosts: Collection
    const env: Env

    function State(): PostState
      reads this
    {
      PostState(posts, userPosts)
    }

    constructor (env: Env)
      ensures State() == DefaultPostState() && this.env == env
    {
      posts := PostsStructure();
      userPosts := UserPostsStructure();
      this.env := env;
    }

    /** `$reset()` */
    method Reset()
      modifies this
      ensures State() == DefaultPostState()
    {
      posts := PostsStructure();
      userPosts := UserPostsStructure();
    }

    /** `this[key] = c` */
    method Store(key: CollectionKey, c: Collection)
      modifies this
      ensures State() == old(State()).Set(key, c)
    {
      match key {
        case Posts => posts := c;
        case UserPosts => userPosts := c;
      }
    }

    /** The `finally` block of `getPosts` on `this[key]`. */
    method RunFinally(key: CollectionKey)
      modifies this
      ensures State() == old(State()).Set(key, Finally(old(State()).Get(key)))
    {
      var c := State().Get(key);
      if c.initialFetch {
        c := c.(initialFetch := false);
      }
      c := c.(isFetchingPosts := false);
      if !c.hasFetchedInitialPosts {
        c := c.(hasFetchedInitialPosts := true);
      }
      Store(key, c);
    }

    /** `getPosts(params)` up to its request. */
    method GetPostsBegin(p: GetPostsParams) returns (step: Step)
      modifies this
      ensures step == BeginStep(old(State()), env, p)
      ensures State() == BeginState(old(State()), env, p)
    {
      var action := if Truthy(p.action) then p.action else Str("fetch_posts");
      var mapped := ActionMapping(action);
      if mapped.None? {
        return NotStarted;
      }
      var key := mapped.value;
      var c := State().Get(key);
      var append := false;
      var url := Str(PostsUrl(env));
      if Truthy(p.paginate) {
        if c.isFetchingPosts {
          RunFinally(key);
          return Finished(None);
        }
        if Nullish(c.meta) {
          Store(key, Caught(c, TypeError()));
          RunFinally(key);
          return Finished(OnErrorCall(p, TypeError()));
        }
        var next := Prop(c.meta, "next_page_url");
        if !Truthy(next) {
          RunFinally(key);
          return Finished(None);
        }
        var canPaginate := true;
        if action == Str("fetch_user_posts") && Truthy(c.userId) && p.userId != Bool(true) {
          if Truthy(p.userId) {
            url := Str(ProfilePostsUrl(env, p.userId));
          }
          canPaginate := false;
        }
        if canPaginate {
          url := next;
          append := true;
        }
      } else if action == Str("fetch_user_posts") {
        if Truthy(p.userId) {
          url := Str(ProfilePostsUrl(env, p.userId));
        } else {
          Store(key, UserPostsStructure());
          RunFinally(key);
          return Finished(None);
        }
      }
      Store(key, c.(isFetchingPosts := true));
      return Awaiting(key, Request(url, QueryOf(p)), append);
    }

    /** `getPosts(params)` once the request for `key` has settled with `response`;
        `call` is the error passed to `onError`, if it was called. */
    method GetPostsComplete(key: CollectionKey, append: bool, p: GetPostsParams, response: Result<Page>)
      returns (call: Option<JsError>)
      modifies this
      ensures State() == CompleteState(old(State()), key, append, response)
      ensures call == match response case Err(e) => OnErrorCall(p, e) case Ok(_) => None
    {
      var c := State().Get(key);
      call := None;
      match response {
        case Ok(page) =>
          var data := if !append then page.data else c.data + NewOnly(c.data, page.data);
          Store(key, c.(data := data));
          Store(key, c.(data := data, meta := page.meta));
        case Err(e) =>
          Store(key, c.(fetchPostsError := Some(e)));
          call := OnErrorCall(p, e);
      }
      RunFinally(key);
    }

    /** `getPosts(params)`, whole: the request it made, if any, settles with `response`. */
    method GetPosts(p: GetPostsParams, response: Result<Page>) returns (request: Option<Request>, call: Option<JsError>)
      modifies this
      ensures (State(), request, call) == GetPostsOutcome(old(State()), env, p, response)
    {
      var step := GetPostsBegin(p);
      match step {
        case NotStarted =>
          request, call := None, None;
        case Finished(c) =>
          request, call := None, c;
        case Awaiting(key, req, append) =>
          request := Some(req);
          call := GetPostsComplete(key, append, p, response);
      }
    }

    /** `updatePostByIndex(data)`: each collection of `actionMapping` in turn. */
    method UpdatePostByIndex(incoming: JsValue)
      modifies this
      ensures State() == UpdatedState(old(State()), incoming)
    {
      var keys := [Posts, UserPosts];
      for i := 0 to 2
        invariant posts == if i >= 1 then old(posts).(data := ReplaceFirst(old(posts).data, incoming)) else old(posts)
        invariant userPosts == if i >= 2 then old(userPosts).(data := ReplaceFirst(old(userPosts).data, incoming)) else old(userPosts)
      {
        var key := keys[i];
        var c := State().Get(key);
        var index := FindIndex(c.data, IncomingId(incoming));
        if index > -1 && Truthy(IncomingId(incoming)) {
          Store(key, c.(data := c.data[index := incoming]));
        }
      }
    }

    /** `createPost(data)` once the upload settled: the created post, or the error. */
    method CreatePost(response: Result<Post>) returns (result: Result<Post>)
      modifies this
      ensures result == response
      ensures State() == if response.Ok? then CreatedState(old(State()), response.value) else old(State())
    {
      match response {
        case Err(e) =>
          return Err(e);
        case Ok(post) =>
          posts := posts.(data := [post] + posts.data);
          return Ok(post);
      }
    }

    /** `getPost(id)`: the URL requested, and the post, which also replaces its listed copies. */
    method GetPost(id: JsValue, response: Result<JsValue>) returns (url: string, result: Result<JsValue>)
      modifies this
      ensures url == PostUrl(env, id)
      ensures result == response
      ensures State() == if response.Ok? then UpdatedState(old(State()), response.value) else old(State())
    {
      url := PostsUrl(env) + "/" + ToJsString(id);
      result := response;
      if response.Ok? {
        UpdatePostByIndex(response.value);
      }
    }

    /** `likeOrUnlikePost(post)`: the request sent, if any, and the updated post from
        the response body, which replaces its listed copies. */
    method LikeOrUnlikePost(post: JsValue, response: Result<JsValue>)
      returns (request: Option<(Verb, string)>, result: Result<JsValue>)
      modifies this
      ensures request == match LikeRequest(env, post) case Ok(r) => Some(r) case Err(_) => None
      ensures LikeRequest(env, post).Err? ==> result == Err(TypeError()) && State() == old(State())
      ensures LikeRequest(env, post).Ok? && response.Err? ==> result == response && State() == old(State())
      ensures LikeRequest(env, post).Ok? && response.Ok? && Nullish(response.value) ==>
                result == Err(TypeError()) && State() == old(State())
      ensures LikeRequest(env, post).Ok? && response.Ok? && !Nullish(response.value) ==>
                result == Ok(Prop(response.value, "post")) &&
                State() == UpdatedState(old(State()), Prop(response.value, "post"))
    {
      var req := LikeRequest(env, post);
      if req.Err? {
        return None, Err(req.error);
      }
      request := Some(req.value);
      match response {
        case Err(e) =>
          result := Err(e);
        case Ok(data) =>
          if Nullish(data) {
            result := Err(TypeError());
          } else {
            UpdatePostByIndex(Prop(data, "post"));
            result := Ok(Prop(data, "post"));
          }
      }
    }

    /** `clearErrors()`: each collection of `actionMapping` in turn. */
    method ClearErrors()
      modifies this
      ensures State() == ErrorsCleared(old(State()))
    {
      var keys := [Posts, UserPosts];
      for i := 0 to 2
        invariant posts == if i >= 1 then old(posts).(fetchPostsError := None) else old(posts)
        invariant userPosts == if i >= 2 then old(userPosts).(fetchPostsError := None) else old(userPosts)
      {
        var key := keys[i];
        Store(key, State().Get(key).(fetchPostsError := None));
      }
    }
  }
}

=== FILE: router.dfy ===
/** The route table and the navigation guard that runs before every route change. */
module Router {
  import opened Js

  /** The path patterns the route table uses. */
  datatype Pattern =
    | Static(path: string)                           // '/', '/about', '/u/'
    | OneOf(prefix: string, options: seq<string>)    // '/:auth(login|signin)'
    | Param(prefix: string)                          // '/post/:id'

  datatype RouteRecord = RouteRecord(pattern: Pattern, requiresAuth: bool, title: string, layout: string)

  const Routes: seq<RouteRecord> := [
    RouteRecord(Static("/"), true, "Home", "Default"),
    RouteRecord(Static("/about"), false, "Home", "Default"),
    RouteRecord(OneOf("/", ["login", "signin"]), false, "Sign In", "Auth"),
    RouteRecord(OneOf("/", ["register", "signup"]), false, "Sign Up", "Auth"),
    RouteRecord(Static("/u/"), true, "Profile", "Profile"),
    RouteRecord(Param("/post/"), true, "Post", "Default")
  ]

  /** Non-strict matching: one trailing slash is ignored. */
  function TrimTrailingSlash(p: string): string
  {
    if |p| > 1 && p[|p| - 1] == '/' then p[..|p| - 1] else p
  }

  predicate Matches(pattern: Pattern, path: string)
  {
    var p := TrimTrailingSlash(path);
    match pattern
    case Static(s) => p == TrimTrailingSlash(s)
    case OneOf(prefix, options) => StartsWith(p, prefix) && p[|prefix|..] in options
    case Param(prefix) => StartsWith(p, prefix) && |p| > |prefix| && '/' !in p[|prefix|..]
  }

  /** The first route of a table whose pattern matches the path. */
  function FirstMatch(routes: seq<RouteRecord>, path: string): (r: Option<RouteRecord>)
    ensures r.Some? ==> r.value in routes && Matches(r.value.pattern, path)
    ensures r.None? ==> forall i :: 0 <= i < |routes| ==> !Matches(routes[i].pattern, path)
  {
    if routes == [] then None
    else if Matches(routes[0].pattern, path) then Some(routes[0])
    else FirstMatch(routes[1..], path)
  }

  /** `to.meta?.requiresAuth` for a path: the matched route's flag, false when no route
      matches (its `meta` is then empty). */
  function RequiresAuth(path: string): (r: bool)
    ensures r ==> exists i :: 0 <= i < |Routes| && Routes[i].requiresAuth && Matches(Routes[i].pattern, path)
  {
    match FirstMatch(Routes, path)
    case Some(r) => r.requiresAuth
    case None => false
  }

  /** The argument of `next(...)` when the guard redirects. */
  datatype Location = Location(path: string, query: Option<seq<(string, string)>>)

  /** The `beforeEach` guard: `None` lets the navigation proceed (`next()`). */
  function BeforeEach(isAuthenticated: bool, toPath: string, requiresAuth: bool): (r: Option<Location>)
    ensures r.Some? && isAuthenticated ==> r.value == Location("/", None)
    ensures r.Some? && !isAuthenticated ==> requiresAuth && r.value.path == "signin" && r.value.query.Some?
    ensures r.Some? && !isAuthenticated && r.value.query != Some([]) ==> r.value.query == Some([("continue", toPath)])
    ensures r.None? && !isAuthenticated ==> !requiresAuth || toPath in ["/login", "/signin"]
  {
    if isAuthenticated then
      if toPath in ["/login", "/signin", "/register", "/signup"] then Some(Location("/", None)) else None
    else if requiresAuth && toPath !in ["/login", "/signin"] then
      Some(Location("signin", Some(if toPath in ["/logout", "/signout"] then [] else [("continue", toPath)])))
    else None
  }

  /** An authenticated visit to a sign-in or sign-up page goes to the home page. */
  lemma AuthenticatedLeavesAuthPages(toPath: string, requiresAuth: bool)
    requires toPath in ["/login", "/signin", "/register", "/signup"]
    ensures BeforeEach(true, toPath, requiresAuth) == Some(Location("/", None))
  {
  }

  /** Any other authenticated navigation proceeds unchanged. */
  lemma AuthenticatedProceeds(toPath: string, requiresAuth: bool)
    requires toPath !in ["/login", "/signin", "/register", "/signup"]
    ensures BeforeEach(true, toPath, requiresAuth).None?
  {
  }

  /** An unauthenticated visit to a protected route goes to the sign-in page, carrying
      the requested path as `continue` unless that path is a logout path. */
  lemma UnauthenticatedRedirectedToSignin(toPath: string)
    requires toPath !in ["/login", "/signin"]
    ensures BeforeEach(false, toPath, true).Some?
    ensures BeforeEach(false, toPath, true).value.path == "signin"
    ensures toPath !in ["/logout", "/signout"] ==>
              BeforeEach(false, toPath, true).value.query == Some([("continue", toPath)])
    ensures toPath in ["/logout", "/signout"] ==> BeforeEach(false, toPath, true).value.query == Some([])
  {
  }

  /** An unauthenticated visit to a public route proceeds. */
  lemma UnauthenticatedPublicProceeds(toPath: string)
    ensures BeforeEach(false, toPath, false).None?
  {
  }

  /** The guard redirects exactly in the two cases above. */
  lemma GuardRedirectsIff(isAuthenticated: bool, toPath: string, requiresAuth: bool)
    ensures BeforeEach(isAuthenticated, toPath, requiresAuth).Some? <==>
              (isAuthenticated && toPath in ["/login", "/signin", "/register", "/signup"]) ||
              (!isAuthenticated && requiresAuth && toPath !in ["/login", "/signin"])
  {
  }

  /** What the guard reads for a path matched by the `i`-th route and by none before it. */
  lemma {:induction false} RequiresAuthAt(path: string, i: nat)
    requires i < |Routes| && Matches(Routes[i].pattern, path)
    requires forall j :: 0 <= j < i ==> !Matches(Routes[j].pattern, path)
    ensures RequiresAuth(path) == Routes[i].requiresAuth
  {
    FirstMatchAt(Routes, path, i);
  }

  lemma {:induction false} FirstMatchAt(routes: seq<RouteRecord>, path: string, i: nat)
    requires i < |routes| && Matches(routes[i].pattern, path)
    requires forall j :: 0 <= j < i ==> !Matches(routes[j].pattern, path)
    ensures FirstMatch(routes, path) == Some(routes[i])
  {
    if i > 0 {
      FirstMatchAt(routes[1..], path, i - 1);
    }
  }

  lemma HomeProtected() ensures RequiresAuth("/") { RequiresAuthAt("/", 0); }

  lemma ProfileProtected() ensures RequiresAuth("/u/") && RequiresAuth("/u")
  {
    assert TrimTrailingSlash("/u/") == "/u";
    NotAuthPage("/u");
    RequiresAuthAt("/u/", 4);
    RequiresAuthAt("/u", 4);
  }

  /** Every post page `/post/:id` is protected, whatever its (slash-free) id. */
  lemma PostProtected(id: string)
    requires id != [] && '/' !in id
    ensures RequiresAuth("/post/" + id)
  {
    var p := "/post/" + id;
    assert p[..6] == "/post/" && p[6..] == id;
    assert p[|p| - 1] == id[|id| - 1];
    NotAuthPage(p);
    assert !Matches(Routes[4].pattern, p) by {
      assert TrimTrailingSlash(p) == p;
      assert p[1..3] == "po";
    }
    RequiresAuthAt(p, 5);
  }

  /** A path that is neither `/`, `/about`, nor one of the sign-in and sign-up pages. */
  lemma {:induction false} NotAuthPage(p: string)
    requires |p| >= 2 && p[0] == '/' && p[1] != 'a' && p[1] != 'l' && p[1] != 's' && p[1] != 'r' && p[|p| - 1] != '/'
    ensures forall j :: 0 <= j < 4 ==> !Matches(Routes[j].pattern, p)
  {
    assert TrimTrailingSlash(p) == p;
    assert p[1..][0] == p[1];
    assert p != "/about" by { assert "/about"[1] == 'a'; }
  }

  lemma AboutPublic() ensures !RequiresAuth("/about") { RequiresAuthAt("/about", 1); }

  lemma LoginPublic() ensures !RequiresAuth("/login")
  {
    assert !Matches(Routes[0].pattern, "/login") && !Matches(Routes[1].pattern, "/login");
    assert Matches(Routes[2].pattern, "/login") by { assert "/login"[1..] == "login"; }
    RequiresAuthAt("/login", 2);
  }

  lemma SigninPublic() ensures !RequiresAuth("/signin")
  {
    assert !Matches(Routes[0].pattern, "/signin") && !Matches(Routes[1].pattern, "/signin");
    assert Matches(Routes[2].pattern, "/signin") by { assert "/signin"[1..] == "signin"; }
    RequiresAuthAt("/signin", 2);
  }

  lemma RegisterPublic() ensures !RequiresAuth("/register")
  {
    assert !Matches(Routes[0].pattern, "/register") && !Matches(Routes[1].pattern, "/register");
    assert !Matches(Routes[2].pattern, "/register") by { assert "/register"[1..] == "register"; }
    assert Matches(Routes[3].pattern, "/register") by { assert "/register"[1..] == "register"; }
    RequiresAuthAt("/register", 3);
  }

  lemma SignupPublic() ensures !RequiresAuth("/signup")
  {
    assert !Matches(Routes[0].pattern, "/signup") && !Matches(Routes[1].pattern, "/signup");
    assert !Matches(Routes[2].pattern, "/signup") by { assert "/signup"[1..] == "signup"; }
    assert Matches(Routes[3].pattern, "/signup") by { assert "/signup"[1..] == "signup"; }
    RequiresAuthAt("/signup", 3);
  }

  /** The route table: home, profile and post pages are protected; about, sign-in and
      sign-up pages are public. */
  lemma RouteTableProtection()
    ensures RequiresAuth("/") && RequiresAuth("/u/") && RequiresAuth("/u")
    ensures forall id :: id != [] && '/' !in id ==> RequiresAuth("/post/" + id)
    ensures !RequiresAuth("/about") && !RequiresAuth("/login") && !RequiresAuth("/signin")
    ensures !RequiresAuth("/register") && !RequiresAuth("/signup")
  {
    HomeProtected();
    ProfileProtected();
    forall id | id != [] && '/' !in id
      ensures RequiresAuth("/post/" + id)
    {
      PostProtected(id);
    }
    AboutPublic();
    LoginPublic();
    SigninPublic();
    RegisterPublic();
    SignupPublic();
  }

  lemma LogoutUnmatched() ensures FirstMatch(Routes, "/logout").None?
  {
    assert !Matches(Routes[0].pattern, "/logout") && !Matches(Routes[1].pattern, "/logout");
    assert !Matches(Routes[2].pattern, "/logout") by { assert "/logout"[1..] == "logout"; }
    assert !Matches(Routes[3].pattern, "/logout") by { assert "/logout"[1..] == "logout"; }
    assert !Matches(Routes[4].pattern, "/logout");
    assert !Matches(Routes[5].pattern, "/logout") by { assert "/logout"[..6][1] != "/post/"[1]; }
  }

  lemma SignoutUnmatched() ensures FirstMatch(Routes, "/signout").None?
  {
    assert !Matches(Routes[0].pattern, "/signout") && !Matches(Routes[1].pattern, "/signout");
    assert !Matches(Routes[2].pattern, "/signout") by { assert "/signout"[1..] == "signout"; }
    assert !Matches(Routes[3].pattern, "/signout") by { assert "/signout"[1..] == "signout"; }
    assert !Matches(Routes[4].pattern, "/signout");
    assert !Matches(Routes[5].pattern, "/signout") by { assert "/signout"[..6][1] != "/post/"[1]; }
  }

  /** No route matches `/logout` or `/signout`, so navigating there never requires
      authentication and the guard's empty-query redirect is never taken with this table. */
  lemma LogoutPathsArePublic()
    ensures !RequiresAuth("/logout") && !RequiresAuth("/signout")
    ensures BeforeEach(false, "/logout", RequiresAuth("/logout")).None?
    ensures BeforeEach(false, "/signout", RequiresAuth("/signout")).None?
  {
    LogoutUnmatched();
    SignoutUnmatched();
  }
}

=== FILE: stores.dfy ===
/** The sign-out cascade shared by the stores: the session store is reset (and the
    storage cleared) before the post store is reset. */
module Stores {
  import opened Js
  import BrowserStorage
  import AuthStore
  import PostStore

  /** `logoutUser(revokeToken)`; `revoked` is the token the revoke request carries,
      if one is sent. */
  method LogoutUser(auth: AuthStore.AuthStore, posts: PostStore.PostStore, storage: BrowserStorage.LocalStorage,
                    revokeToken: bool)
    returns (revoked: Option<JsValue>)
    requires storage.Valid()
    modifies auth, posts, storage
    ensures revoked == AuthStore.RevokeRequestToken(revokeToken, old(auth.accessToken))
    ensures auth.State() == AuthStore.DefaultState() && !auth.IsAuthenticated()
    ensures posts.State() == PostStore.DefaultPostState()
    ensures storage.Valid()
    ensures storage.keyList == BrowserStorage.SweepFrom(old(storage.keyList), BrowserStorage.ExceptList(AuthStore.KeptOnSignOut), 0)
    ensures forall k :: k in storage.items ==> k in old(storage.items) && storage.items[k] == old(storage.items)[k]
  {
    var resolved;
    resolved, revoked := auth.SetUnauthenticated(revokeToken, storage);
    posts.Reset();
  }

  /** `logoutUser()` with the default argument: the session token is revoked. */
  method LogoutUserByDefault(auth: AuthStore.AuthStore, posts: PostStore.PostStore, storage: BrowserStorage.LocalStorage)
    returns (revoked: Option<JsValue>)
    requires storage.Valid()
    modifies auth, posts, storage
    ensures revoked == Some(old(auth.accessToken))
    ensures auth.State() == AuthStore.DefaultState() && posts.State() == PostStore.DefaultPostState()
    ensures storage.Valid()
    ensures storage.keyList == BrowserStorage.SweepFrom(old(storage.keyList), BrowserStorage.ExceptList(AuthStore.KeptOnSignOut), 0)
    ensures forall k :: k in storage.items ==> k in old(storage.items) && storage.items[k] == old(storage.items)[k]
  {
    revoked := LogoutUser(auth, posts, storage, true);
  }

  /** After signing out nobody is signed in, both post collections are empty, the
      theme mode is still stored, and at least half of the stored keys, rounded down,
      survive the forward-index sweep. */
  lemma SignedOutState(keys: seq<string>)
    ensures !AuthStore.Authenticated(AuthStore.DefaultState())
    ensures PostStore.DefaultPostState().posts.data == [] && PostStore.DefaultPostState().userPosts.data == []
    ensures "themeMode" in keys ==>
              "themeMode" in BrowserStorage.SweepFrom(keys, BrowserStorage.ExceptList(AuthStore.KeptOnSignOut), 0)
    ensures 2 * |BrowserStorage.SweepFrom(keys, BrowserStorage.ExceptList(AuthStore.KeptOnSignOut), 0)| + 1 >= |keys|
  {
    if "themeMode" in keys {
      AuthStore.SignOutKeepsThemeMode(keys);
    }
    BrowserStorage.SweepLeavesHalf(keys, BrowserStorage.ExceptList(AuthStore.KeptOnSignOut));
  }
}

=== FILE: urls.dfy ===
/** The endpoint catalogue: every API URL is the configured API root joined with a
    path literal. */
module Urls {
  import opened Js

  /** The two build-time settings `VITE_APP_URL_API_BASE` and `VITE_APP_URL_API`. */
  datatype Env = Env(apiBase: string, api: string)

  /** `withApiUrl(path)`: the API root, then `/` and the path; when the path is falsy the
      template literal inserts the `null` of its other branch. */
  function WithApiUrl(env: Env, path: JsValue): string
  {
    env.api + (if Truthy(path) then "/" + ToJsString(path) else ToJsString(Null))
  }

  function AuthUrl(env: Env): (url: string)
    ensures url == env.api + "/auth"
  {
    WithApiUrlJoinsPath(env, "auth");
    WithApiUrl(env, Str("auth"))
  }
  function AuthLoginUrl(env: Env): (url: string)
    ensures url == env.api + "/auth/login"
  {
    WithApiUrlJoinsPath(env, "auth/login");
    WithApiUrl(env, Str("auth/login"))
  }
  function AuthRefreshUrl(env: Env): (url: string)
    ensures url == env.api + "/auth/refresh"
  {
    WithApiUrlJoinsPath(env, "auth/refresh");
    WithApiUrl(env, Str("auth/refresh"))
  }
  function AuthRegisterUrl(env: Env): (url: string)
    ensures url == env.api + "/auth/register"
  {
    WithApiUrlJoinsPath(env, "auth/register");
    WithApiUrl(env, Str("auth/register"))
  }
  function AuthUserUrl(env: Env): (url: string)
    ensures url == env.api + "/auth/user"
  {
    WithApiUrlJoinsPath(env, "auth/user");
    WithApiUrl(env, Str("auth/user"))
  }
  function AuthLogoutUrl(env: Env): (url: string)
    ensures url == env.api + "/auth/logout"
  {
    WithApiUrlJoinsPath(env, "auth/logout");
    WithApiUrl(env, Str("auth/logout"))
  }
  function PostsUrl(env: Env): (url: string)
    ensures url == env.api + "/posts"
  {
    WithApiUrlJoinsPath(env, "posts");
    WithApiUrl(env, Str("posts"))
  }
  function CommentsUrl(env: Env): (url: string)
    ensures url == env.api + "/comments"
  {
    WithApiUrlJoinsPath(env, "comments");
    WithApiUrl(env, Str("comments"))
  }
  function CommentsReplyUrl(env: Env): (url: string)
    ensures url == env.api + "/comments/reply"
  {
    WithApiUrlJoinsPath(env, "comments/reply");
    WithApiUrl(env, Str("comments/reply"))
  }
  function CommentsRepliesUrl(env: Env): (url: string)
    ensures url == env.api + "/comments/replies"
  {
    WithApiUrlJoinsPath(env, "comments/replies");
    WithApiUrl(env, Str("comments/replies"))
  }
  function GalleryUrl(env: Env): (url: string)
    ensures url == env.api + "/gallery"
  {
    WithApiUrlJoinsPath(env, "gallery");
    WithApiUrl(env, Str("gallery"))
  }
  function LikesLikeUrl(env: Env): (url: string)
    ensures url == env.api + "/likes/like"
  {
    WithApiUrlJoinsPath(env, "likes/like");
    WithApiUrl(env, Str("likes/like"))
  }
  function LikesUnlikeUrl(env: Env): (url: string)
    ensures url == env.api + "/likes/unlike"
  {
    WithApiUrlJoinsPath(env, "likes/unlike");
    WithApiUrl(env, Str("likes/unlike"))
  }
  function ProfileUrl(env: Env): (url: string)
    ensures url == env.api + "/profile"
  {
    WithApiUrlJoinsPath(env, "profile");
    WithApiUrl(env, Str("profile"))
  }

  /** A non-empty path is appended after a slash. */
  lemma WithApiUrlJoinsPath(env: Env, path: string)
    requires path != ""
    ensures WithApiUrl(env, Str(path)) == env.api + "/" + path
  {
  }

  /** A missing or empty path yields the API root followed by the text `null`. */
  lemma WithApiUrlWithoutPath(env: Env, path: JsValue)
    requires path == Null || path == Undefined || path == Str("")
    ensures WithApiUrl(env, path) == env.api + "null"
  {
  }

  lemma {:induction false} PrefixOfConcat(a: string, b: string, c: string)
    ensures StartsWith(a + b + c, a + b)
  {
    assert (a + b + c)[..|a + b|] == a + b;
  }

  /** A path under `auth/` yields a URL under the auth URL. */
  lemma {:induction false} AuthPathUnderAuthUrl(env: Env, rest: string)
    ensures StartsWith(WithApiUrl(env, Str("auth/" + rest)), AuthUrl(env) + "/")
  {
    var url := WithApiUrl(env, Str("auth/" + rest));
    assert url == env.api + "/" + "auth/" + rest;
    assert AuthUrl(env) + "/" == env.api + "/" + "auth/";
    PrefixOfConcat(env.api, "/" + "auth/", rest);
  }

  /** The login, refresh, register, user and logout URLs all lie under the auth URL. */
  lemma AuthEndpointsUnderAuthUrl(env: Env)
    ensures StartsWith(AuthLoginUrl(env), AuthUrl(env) + "/")
    ensures StartsWith(AuthRefreshUrl(env), AuthUrl(env) + "/")
    ensures StartsWith(AuthRegisterUrl(env), AuthUrl(env) + "/")
    ensures StartsWith(AuthUserUrl(env), AuthUrl(env) + "/")
    ensures StartsWith(AuthLogoutUrl(env), AuthUrl(env) + "/")
  {
    assert "auth/login" == "auth/" + "login";
    AuthPathUnderAuthUrl(env, "login");
    assert "auth/refresh" == "auth/" + "refresh";
    AuthPathUnderAuthUrl(env, "refresh");
    assert "auth/register" == "auth/" + "register";
    AuthPathUnderAuthUrl(env, "register");
    assert "auth/user" == "auth/" + "user";
    AuthPathUnderAuthUrl(env, "user");
    assert "auth/logout" == "auth/" + "logout";
    AuthPathUnderAuthUrl(env, "logout");
  }

  /** Two strings that differ at a position within both: neither is a prefix of the other. */
  lemma {:induction false} DivergentNoPrefix(u: string, w: string, k: nat)
    requires k < |u| && k < |w| && u[k] != w[k]
    ensures !StartsWith(u, w)
  {
    if |w| <= |u| {
      assert u[..|w|][k] != w[k];
    }
  }

  /** The character of a joined URL at a position inside its path. */
  lemma {:induction false} CharInPath(root: string, p: string, i: nat)
    requires i < |p|
    ensures (root + "/" + p)[|root| + 1 + i] == p[i]
  {
  }

  /** Two paths under one root that differ at position `i`: neither URL is a prefix of the other. */
  lemma {:induction false} DivergentPathsNoPrefix(root: string, p: string, q: string, i: nat)
    requires i < |p| && i < |q| && p[i] != q[i]
    ensures !StartsWith(root + "/" + p, root + "/" + q)
  {
    CharInPath(root, p, i);
    CharInPath(root, q, i);
    DivergentNoPrefix(root + "/" + p, root + "/" + q, |root| + 1 + i);
  }

  /** The user and logout URLs do not begin with the register, login or refresh URL,
      so requests to them are not exempt from the bearer header. */
  lemma UserAndLogoutNotExempt(env: Env)
    ensures !StartsWith(AuthUserUrl(env), AuthRegisterUrl(env))
    ensures !StartsWith(AuthUserUrl(env), AuthLoginUrl(env))
    ensures !StartsWith(AuthUserUrl(env), AuthRefreshUrl(env))
    ensures !StartsWith(AuthLogoutUrl(env), AuthRegisterUrl(env))
    ensures !StartsWith(AuthLogoutUrl(env), AuthLoginUrl(env))
    ensures !StartsWith(AuthLogoutUrl(env), AuthRefreshUrl(env))
  {
    var r := env.api;
    assert AuthUserUrl(env) == r + "/" + "auth/user" by { WithApiUrlJoinsPath(env, "auth/user"); }
    assert AuthLogoutUrl(env) == r + "/" + "auth/logout" by { WithApiUrlJoinsPath(env, "auth/logout"); }
    assert AuthLoginUrl(env) == r + "/" + "auth/login" by { WithApiUrlJoinsPath(env, "auth/login"); }
    assert AuthRefreshUrl(env) == r + "/" + "auth/refresh" by { WithApiUrlJoinsPath(env, "auth/refresh"); }
    assert AuthRegisterUrl(env) == r + "/" + "auth/register" by { WithApiUrlJoinsPath(env, "auth/register"); }
    DivergentPathsNoPrefix(r, "auth/user", "auth/register", 5);
    DivergentPathsNoPrefix(r, "auth/user", "auth/login", 5);
    DivergentPathsNoPrefix(r, "auth/user", "auth/refresh", 5);
    DivergentPathsNoPrefix(r, "auth/logout", "auth/register", 5);
    DivergentPathsNoPrefix(r, "auth/logout", "auth/login", 8);
    DivergentPathsNoPrefix(r, "auth/logout", "auth/refresh", 5);
  }
}

=== FILE: utils.dfy ===
/** Key re-casing of JSON-like values (`toCase` and its two wrappers) and the plain
    object test. The case function is a parameter: the camel-case and kebab-case
    converters of the `change-case` package are not part of this model. */
module Utils {
  import opened Js

  /** `!!v && typeof v === 'object'`: the values `toCase` descends into. */
  predicate Recasable(v: JsValue)
  {
    Truthy(v) && IsTypeofObject(v)
  }

  /** The entries `Object.entries` yields: a plain object's own entries, none for a
      built-in object of another class. */
  function Entries(v: JsValue): Fields
  {
    match v
    case Obj(fs) => fs
    case _ => []
  }

  /** What `toCase(f, v, recursive)` returns. */
  function CaseKeys(f: string -> string, v: JsValue, recursive: bool): (r: JsValue)
    ensures !Recasable(v) ==> r == v
    ensures v.Arr? ==> r.Arr? && |r.items| == |v.items|
    ensures v.Obj? || v.Tagged? ==> r.Obj? && UniqueKeys(r.fields)
    decreases v, 0
  {
    if Recasable(v) then
      match v
      case Arr(items) => Arr(MapItems(f, items, recursive))
      case Obj(fs) => Obj(RecaseFields(f, fs, recursive))
      case _ => Obj([])
    else v
  }

  /** The element callback of the array branches: an object element is re-cased, in
      the same mode, anything else is kept. */
  function CaseItem(f: string -> string, item: JsValue, recursive: bool): JsValue
    decreases item, 1
  {
    if Recasable(item) then CaseKeys(f, item, recursive) else item
  }

  /** `items.map(...)` with the element callback. */
  function MapItems(f: string -> string, items: seq<JsValue>, recursive: bool): (r: seq<JsValue>)
    ensures |r| == |items|
    ensures forall i :: 0 <= i < |items| && !Recasable(items[i]) ==> r[i] == items[i]
    decreases items
  {
    if items == [] then []
    else
      var n := |items| - 1;
      MapItems(f, items[..n], recursive) + [CaseItem(f, items[n], recursive)]
  }

  /** The value written under the re-cased key of an entry: in recursive mode an
      object value (null included) goes through `toCase` again; otherwise the value is
      kept. */
  function CaseValue(f: string -> string, entry: (string, JsValue), recursive: bool): JsValue
    decreases entry, 1
  {
    if recursive && IsTypeofObject(entry.1) then CaseKeys(f, entry.1, true) else entry.1
  }

  /** The object `newObj` built by the `for...of` loop over the entries: each entry
      assigns `newObj[f(key)]` in turn. */
  function RecaseFields(f: string -> string, fs: Fields, recursive: bool): (r: Fields)
    ensures UniqueKeys(r)
    decreases fs
  {
    if fs == [] then []
    else
      var n := |fs| - 1;
      Put(RecaseFields(f, fs[..n], recursive), f(fs[n].0), CaseValue(f, fs[n], recursive))
  }

  /** `toCase(caseFunction, obj, recursive)` */
  method ToCase(f: string -> string, obj: JsValue, recursive: bool) returns (r: JsValue)
    ensures r == CaseKeys(f, obj, recursive)
    decreases obj, 2
  {
    if !Recasable(obj) {
      r := obj;
    } else if obj.Arr? {
      var out := CaseArray(f, obj, recursive);
      r := Arr(out);
    } else {
      var newObj := CaseObject(f, obj, recursive);
      r := Obj(newObj);
    }
  }

  /** The `obj.map(...)` branches of `toCase`. */
  method CaseArray(f: string -> string, obj: JsValue, recursive: bool) returns (out: seq<JsValue>)
    requires obj.Arr?
    ensures out == MapItems(f, obj.items, recursive)
    decreases obj, 1
  {
    var items := obj.items;
    out := [];
    var i := 0;
    while i < |items|
      invariant 0 <= i <= |items|
      invariant out == MapItems(f, items[..i], recursive)
    {
      var item := items[i];
      var mapped := item;
      if Recasable(item) {
        mapped := ToCase(f, item, recursive);
      }
      assert items[..i + 1][..i] == items[..i];
      out := out + [mapped];
      i := i + 1;
    }
    assert items[..|items|] == items;
  }

  /** The `for...of` branches of `toCase`, building `newObj`. */
  method CaseObject(f: string -> string, obj: JsValue, recursive: bool) returns (newObj: Fields)
    requires Recasable(obj) && !obj.Arr?
    ensures newObj == RecaseFields(f, Entries(obj), recursive)
    decreases obj, 1
  {
    var entries := Entries(obj);
    newObj := [];
    var i := 0;
    while i < |entries|
      invariant 0 <= i <= |entries|
      invariant newObj == RecaseFields(f, entries[..i], recursive)
    {
      var entry := entries[i];
      var cased := entry.1;
      if recursive && Truthy(obj) && IsTypeofObject(entry.1) {
        cased := CaseEntryValue(f, entry);
      }
      RecaseFieldsStep(f, entries, i, cased, recursive);
      newObj := Put(newObj, f(entry.0), cased);
      assert newObj == RecaseFields(f, entries[..i + 1], recursive);
      i := i + 1;
    }
    assert entries[..|entries|] == entries;
  }

  /** One iteration of the `for...of` loop assigns the next entry's cased value. */
  lemma RecaseFieldsStep(f: string -> string, entries: Fields, i: nat, cased: JsValue, recursive: bool)
    requires i < |entries| && cased == CaseValue(f, entries[i], recursive)
    ensures RecaseFields(f, entries[..i + 1], recursive) == Put(RecaseFields(f, entries[..i], recursive), f(entries[i].0), cased)
  {
    RecaseFieldsSnoc(f, entries[..i], entries[i], recursive);
    assert entries[..i + 1] == entries[..i] + [entries[i]];
  }

  /** Re-casing one more entry assigns it last. */
  lemma RecaseFieldsSnoc(f: string -> string, fs: Fields, entry: (string, JsValue), recursive: bool)
    ensures RecaseFields(f, fs + [entry], recursive) == Put(RecaseFields(f, fs, recursive), f(entry.0), CaseValue(f, entry, recursive))
  {
    assert (fs + [entry])[..|fs|] == fs;
  }

  /** `toCase(caseFunction, value, true)` on the value of an entry. */
  method CaseEntryValue(f: string -> string, entry: (string, JsValue)) returns (r: JsValue)
    ensures r == CaseKeys(f, entry.1, true)
    decreases entry, 3
  {
    r := ToCase(f, entry.1, true);
  }

  /** An array comes back with the same length; each object element is re-cased in
      the same mode and every other element is kept. */
  lemma {:induction false} MapItemsAt(f: string -> string, items: seq<JsValue>, recursive: bool, i: nat)
    requires i < |items|
    ensures Recasable(items[i]) ==> MapItems(f, items, recursive)[i] == CaseKeys(f, items[i], recursive)
    ensures !Recasable(items[i]) ==> MapItems(f, items, recursive)[i] == items[i]
    decreases |items|
  {
    var n := |items| - 1;
    if i < n {
      MapItemsAt(f, items[..n], recursive, i);
    }
  }

  /** The cased keys are exactly the images of the original keys. */
  lemma {:induction false} RecaseFieldsKeys(f: string -> string, fs: Fields, recursive: bool)
    ensures forall key :: key in KeysOf(RecaseFields(f, fs, recursive)) <==>
              exists j :: 0 <= j < |fs| && f(fs[j].0) == key
    decreases |fs|
  {
    RecaseFieldsKeySet(f, fs, recursive);
    ImagesExactly(f, fs);
  }

  /** The images under `f` of the keys of `fs`. */
  function Images(f: string -> string, fs: Fields): set<string>
  {
    if fs == [] then {} else Images(f, fs[..|fs| - 1]) + {f(fs[|fs| - 1].0)}
  }

  lemma {:induction false} RecaseFieldsKeySet(f: string -> string, fs: Fields, recursive: bool)
    ensures KeysOf(RecaseFields(f, fs, recursive)) == Images(f, fs)
    decreases |fs|
  {
    if fs != [] {
      RecaseFieldsKeySet(f, fs[..|fs| - 1], recursive);
      RecaseFieldsKeysStep(f, fs, recursive);
    }
  }

  lemma {:induction false} ImagesExactly(f: string -> string, fs: Fields)
    ensures forall key :: key in Images(f, fs) <==> exists j :: 0 <= j < |fs| && f(fs[j].0) == key
    decreases |fs|
  {
    if fs != [] {
      var n := |fs| - 1;
      var prev := fs[..n];
      ImagesExactly(f, prev);
      assert Images(f, fs) == Images(f, prev) + {f(fs[n].0)};
      forall key | key in Images(f, fs)
        ensures exists j :: 0 <= j < |fs| && f(fs[j].0) == key
      {
        if key != f(fs[n].0) {
          var j :| 0 <= j < n && f(prev[j].0) == key;
          assert f(fs[j].0) == key;
        }
      }
      forall key | exists j :: 0 <= j < |fs| && f(fs[j].0) == key
        ensures key in Images(f, fs)
      {
        var j :| 0 <= j < |fs| && f(fs[j].0) == key;
        if j < n {
          assert f(prev[j].0) == key;
        }
      }
    }
  }

  /** Re-casing the entries with one more at the end adds the image of its key. */
  lemma RecaseFieldsKeysStep(f: string -> string, fs: Fields, recursive: bool)
    requires fs != []
    ensures KeysOf(RecaseFields(f, fs, recursive)) == KeysOf(RecaseFields(f, fs[..|fs| - 1], recursive)) + {f(fs[|fs| - 1].0)}
  {
  }



  /** When several keys case to the same key, the value of the last of them is the
      one kept (each assignment overwrites the previous). */
  lemma {:induction false} RecaseFieldsLastWins(f: string -> string, fs: Fields, recursive: bool, j: nat)
    requires j < |fs|
    requires forall j' :: j < j' < |fs| ==> f(fs[j'].0) != f(fs[j].0)
    ensures Lookup(RecaseFields(f, fs, recursive), f(fs[j].0)) == CaseValue(f, fs[j], recursive)
    decreases |fs|
  {
    var n := |fs| - 1;
    if j < n {
      forall j' | j < j' < n ensures f(fs[..n][j'].0) != f(fs[..n][j].0) {
        assert fs[..n][j'] == fs[j'];
      }
      assert fs[..n][j] == fs[j];
      RecaseFieldsLastWins(f, fs[..n], recursive, j);
    }
  }

  /** Non-recursive mode: every cased key holds the value of the last original entry
      that cases to it, untouched. */
  lemma NonRecursiveKeepsValues(f: string -> string, fs: Fields, j: nat)
    requires j < |fs|
    requires forall j' :: j < j' < |fs| ==> f(fs[j'].0) != f(fs[j].0)
    ensures var r := CaseKeys(f, Obj(fs), false);
            r.Obj? && Lookup(r.fields, f(fs[j].0)) == fs[j].1
  {
    RecaseFieldsLastWins(f, fs, false, j);
  }

  /** Recursive mode: a nested object or array value is itself re-cased recursively. */
  lemma RecursiveRecasesNested(f: string -> string, fs: Fields, j: nat)
    requires j < |fs|
    requires forall j' :: j < j' < |fs| ==> f(fs[j'].0) != f(fs[j].0)
    ensures var r := CaseKeys(f, Obj(fs), true);
            r.Obj? && Lookup(r.fields, f(fs[j].0)) ==
              (if IsTypeofObject(fs[j].1) then CaseKeys(f, fs[j].1, true) else fs[j].1)
  {
    RecaseFieldsLastWins(f, fs, true, j);
  }

  /** Assigning a new key appends it. */
  lemma {:induction false} PutNewKeyAppends(fs: Fields, k: string, v: JsValue)
    requires k !in KeysOf(fs)
    ensures Put(fs, k, v) == fs + [(k, v)]
  {
    if fs != [] {
      assert k != fs[0].0;
      PutNewKeyAppends(fs[1..], k, v);
      assert [fs[0]] + (fs[1..] + [(k, v)]) == fs + [(k, v)];
    }
  }

  /** An object whose keys the case function already fixes, without duplicates, is
      rebuilt unchanged by non-recursive re-casing. */
  lemma {:induction false} RecaseFixedKeys(f: string -> string, fs: Fields)
    requires UniqueKeys(fs)
    requires forall j :: 0 <= j < |fs| ==> f(fs[j].0) == fs[j].0
    ensures RecaseFields(f, fs, false) == fs
    decreases |fs|
  {
    if fs != [] {
      var n := |fs| - 1;
      var init := fs[..n];
      assert UniqueKeys(init) by {
        forall a, b | 0 <= a < b < n ensures init[a].0 != init[b].0 {
          assert init[a] == fs[a] && init[b] == fs[b];
        }
      }
      forall j | 0 <= j < n ensures f(init[j].0) == init[j].0 {
        assert init[j] == fs[j];
      }
      RecaseFixedKeys(f, init);
      assert fs[n].0 !in KeysOf(init) by {
        KeysOfOnlyEach(init);
        forall j | 0 <= j < n ensures init[j].0 != fs[n].0 {
          assert init[j] == fs[j];
        }
      }
      PutNewKeyAppends(init, fs[n].0, fs[n].1);
      assert init + [(fs[n].0, fs[n].1)] == fs;
    }
  }

  /** With an idempotent case function (camel case of a camel-cased key is itself),
      non-recursive re-casing of an object is idempotent. */
  lemma RecaseIdempotent(f: string -> string, fs: Fields)
    requires forall k :: f(f(k)) == f(k)
    ensures CaseKeys(f, CaseKeys(f, Obj(fs), false), false) == CaseKeys(f, Obj(fs), false)
  {
    var r := RecaseFields(f, fs, false);
    RecaseFieldsKeys(f, fs, false);
    KeysOfHasEach(r);
    forall j | 0 <= j < |r| ensures f(r[j].0) == r[j].0 {
      var i :| 0 <= i < |fs| && f(fs[i].0) == r[j].0;
      assert f(f(fs[i].0)) == f(fs[i].0);
    }
    RecaseFixedKeys(f, r);
  }

  /** The two case converters the app uses. */
  datatype CaseFunctions = CaseFunctions(camelCase: string -> string, kebabCase: string -> string)

  /** `keysToCamelCase(obj, recursive)`: the keys of an object are its keys in camel
      case; anything that is not an object comes back as it was. */
  function KeysToCamelCase(cases: CaseFunctions, obj: JsValue, recursive: bool): (r: JsValue)
    ensures !Recasable(obj) ==> r == obj
    ensures obj.Obj? ==> r.Obj? && forall key :: key in KeysOf(r.fields) <==>
              exists j :: 0 <= j < |obj.fields| && cases.camelCase(obj.fields[j].0) == key
  {
    if obj.Obj? then
      RecaseFieldsKeys(cases.camelCase, obj.fields, recursive);
      CaseKeys(cases.camelCase, obj, recursive)
    else CaseKeys(cases.camelCase, obj, recursive)
  }

  /** `keysToKebabCase(obj, recursive)`: the keys of an object are its keys in kebab
      case; anything that is not an object comes back as it was. */
  function KeysToKebabCase(cases: CaseFunctions, obj: JsValue, recursive: bool): (r: JsValue)
    ensures !Recasable(obj) ==> r == obj
    ensures obj.Obj? ==> r.Obj? && forall key :: key in KeysOf(r.fields) <==>
              exists j :: 0 <= j < |obj.fields| && cases.kebabCase(obj.fields[j].0) == key
  {
    if obj.Obj? then
      RecaseFieldsKeys(cases.kebabCase, obj.fields, recursive);
      CaseKeys(cases.kebabCase, obj, recursive)
    else CaseKeys(cases.kebabCase, obj, recursive)
  }

  /** `Object.prototype.toString.call(v)` for an object. */
  function ObjectTag(v: JsValue): string
  {
    match v
    case Arr(_) => "[object Array]"
    case Tagged(t) => "[object " + t + "]"
    case _ => "[object Object]"
  }

  /** `isRealObject(v)` */
  predicate IsRealObject(v: JsValue)
    ensures IsRealObject(v) ==> v.Obj? || v.Tagged?
  {
    Truthy(v) && IsTypeofObject(v) && !v.Arr? && ObjectTag(v) == "[object Object]"
  }

  /** Only plain objects (and an object whose class tag is itself `Object`) pass:
      null, arrays, primitives and built-in objects such as a Date do not. */
  lemma IsRealObjectExactly(v: JsValue)
    ensures IsRealObject(v) <==> v.Obj? || v == Tagged("Object")
  {
    if v.Tagged? {
      var t := v.tag;
      if ObjectTag(v) == "[object Object]" {
        assert "[object " + t + "]" == "[object Object]";
        assert |t| == 6;
        assert t == ("[object " + t + "]")[8..14];
      }
    }
  }
}
